=== FILE: README.md ===
# ChatApp real-time core in Dafny

A model of the logic of a small real-time chat application. It covers four parts:

- **The socket server.** Authenticated sockets come and go, and an `onlineUsers` map records who is connected. Sockets join the room of a conversation ("session"). Messages are stored and fanned out to every participant's personal room, and a background task later attaches a link preview. Typing indicators, deletion notices, delivered/read receipts and emoji reactions are relayed or recorded.
- **The URL scanner.** It splits message text into text and link segments and finds the first URL.
- **The chat page's state updates.** These cover sidebar order, the open conversation's list, unread counters, receipts, reactions, and the receipts the page sends back.
- **The session-list endpoint.** GET lists the caller's sessions with unread counts and flags. POST finds the session with exactly the requested participants or creates it.

Every handler is a pure function. The server's handlers map a `State` and the event's fields to the next `State` and the list of emits they perform (`Server.Step`). The page's handlers map a `ClientState` to the next one and the receipts it sends (`ChatClient.ClientStep`).

Modules:

| file | module | what it holds |
|---|---|---|
| common.dfy | `Common` | Option, duplicate-free sequences, subsequences, `[...new Set(xs)]`, JavaScript white space, `trim`, truthiness |
| link_utils.dfy | `LinkUtils` | the URL pattern as a scanner, `detectLinks`, `extractFirstUrl` |
| chat_types.dfy | `ChatTypes` | users, messages, reactions, link previews; the add-if-absent receipt step |
| server.dfy | `Server` | store, presence, rooms, emits, every socket handler, the event loop `Handle` |
| server_properties.dfy | `ServerProperties` | the state invariant and its preservation, idempotence, toggling, presence quirks |
| client.dfy | `ChatClient` | the page's reducers, its event loop and invariant |
| sessions_route.dfy | `SessionsRoute` | GET and POST of the session list |
| sync.dfy | `Sync` | the page's echo handlers keep its copy equal to the server's store |

How the model represents the system:

- Identifiers are strings. An absent or empty string field is `""`. An optional object field is an `Option`.
- The participant table is a sequence of `(sessionId, userId)` rows in table order. A user's membership in a session is the presence of such a row.
- `onlineUsers` is a sequence of entries in the JavaScript `Map`'s iteration order. Setting an existing key keeps its position, and a new key goes last.
- A loosely typed value a client sends, such as the typing flag, is a `JsValue`: undefined, null, a boolean, a number, a string, or an object or array (`JsObject`, always truthy). Numbers are integers; `NaN` is left out.
- Values the database or the runtime produce are fields of the event that needs them. These are a new message id, a new reaction row id, the clock reading `now`, and the page's random temporary reaction id. Only the new message id has a freshness precondition: the database never reuses a message id. Nothing constrains the reaction row id or the page's temporary id, and no property of the model relies on reaction ids being unique.

## Model

| member | source | states |
|---|---|---|
| Common.Trim | server/server.js:111 | the result is empty exactly when every character is white space; otherwise it starts and ends with a non-space character and is the slice between the leading and trailing white space |
| Common.Dedupe | app/api/sessions/route.ts:99 | no duplicates, the same elements as the input, ordered by their first occurrence in the input (so also a subsequence of it), and the first element is kept first |
| Common.DedupeIsUnique | app/api/sessions/route.ts:99 | any duplicate-free sequence of exactly the input's elements in first-occurrence order is the result of `[...new Set(s)]` |
| Common.StringOrNull | server/server.js:132-134 | `x \|\| null` on a string: null exactly for the empty string, otherwise the string itself |
| LinkUtils.RunEnd | lib/linkUtils.ts:10 | `[^\s]+` consumes exactly the run of non-space characters, up to white space or the end of the text |
| LinkUtils.FindMatch | lib/linkUtils.ts:17-20 | the position found starts a match and no earlier position at or after `from` does, so matches are leftmost |
| LinkUtils.UrlFor | lib/linkUtils.ts:30-34 | the url equals the content, or the content with `https://` prepended, and it is prepended exactly when the content starts with lower-case `www.` (a case-sensitive test) |
| LinkUtils.MatchedTokenIsUrl | lib/linkUtils.ts:10 | a match extends past its prefix and the matched run is a URL token: it starts with one of the three prefixes, ignoring case, with a non-space character after the prefix, and holds no white space |
| LinkUtils.SegmentsProperties | lib/linkUtils.ts:19-51 | the scanning loop from `lastIndex` reproduces the rest of the text, yields nothing exactly at the end of the text, and every segment it yields is well formed |
| LinkUtils.DetectLinks | lib/linkUtils.ts:12-58 | the result is never empty; concatenating contents gives back the text; "" gives exactly one empty text segment; otherwise text segments are non-empty and never adjacent; each link is a URL token followed by white space or the end, with url `UrlFor(content)`; no position inside a text segment can start a match |
| LinkUtils.NoMatchNoLink | lib/linkUtils.ts:53-56 | a text where the pattern matches nowhere comes back as the single text segment holding all of it |
| LinkUtils.ExtractFirstUrl | lib/linkUtils.ts:61-73 | null exactly when `detectLinks` yields no link segment; otherwise the url of the first link segment |
| ChatTypes.AddReceipt | server/server.js:282-296 | the user ends up in the list; a message that already lists the user is unchanged; otherwise the user is appended; a list without duplicates stays so; no other field changes |
| Server.Authenticate | server/server.js:38-68 | a socket is accepted exactly when it has a token that verifies to an existing user, and it is bound to that user; the refusal reasons are the three middleware messages |
| Server.PresenceSet | server/server.js:74-79 | `Map.set`: the new entry is present and is the user's only entry; other users' entries are kept and nothing else is added; when the user already has an entry, the length is kept and every other user's entry stays at its position (so the new entry takes the old one's place); a new key is appended |
| Server.PresenceDelete | server/server.js:412 | `Map.delete`: exactly the entries of other users remain, in order, and the user is no longer online |
| Server.PresenceDeleteCount | server/server.js:412 | every entry of another user is kept as many times as it occurred, and the user's entries are all gone |
| Server.Members | server/server.js:157-161 | the user ids listed are exactly the users with a participant row for the session |
| Server.FanOutToMembers | server/server.js:164-166 | emitting to each participant's personal room reaches every member and only members, with one payload |
| Server.OnConnect | server/server.js:70-81 | a refused handshake changes nothing and reports the reason; an accepted one binds the socket to the user in its personal room, sets presence exactly as `Map.set` with this socket's entry does, so with one entry per user the user's only entry names this socket (an earlier one is replaced) and entries stay one per user; other users' entries are kept; the new list is broadcast to all |
| Server.OnDisconnect | server/server.js:411-413 | the socket is gone, the user has no presence entry whichever socket it named, other entries remain, and the new list goes to all |
| Server.OnJoinSession | server/server.js:83-99 | a participant's socket gains the room and the ack says ok; a missing id or a non-participant leaves every room unchanged and the ack carries the matching error |
| Server.OnLeaveSession | server/server.js:101-103 | a non-empty id leaves that room, with no check and no emit; an empty id does nothing |
| Server.SendError | server/server.js:107-123 | a send is accepted exactly when the session id is present, the trimmed content or the attachment is non-empty, and the sender is a participant; the errors come in the handler's order |
| Server.NewMessageRow | server/server.js:126-136 | the stored row has the trimmed content; the type defaults to TEXT; an empty attachment, file name or zero file size becomes null; there is no preview, and the receipt and reaction lists are empty |
| Server.OnSendMessage | server/server.js:105-182 | a refused send acks the error and changes nothing; an accepted one stores the row under the new id, touches the session, emits `new-message` with that row to exactly the members' personal rooms, then acks the same row; a preview task exists exactly when the trimmed content contains a URL, and it carries that URL (www. gets https://) |
| Server.OnPreviewFetched | server/server.js:193-221 | a failed fetch changes nothing and emits nothing; a successful one sets the preview of the message and emits `message-updated` with it to each recipient |
| Server.OnTyping | server/server.js:234-249 | only a participant with a session id emits, to the room minus the sender, with the display name and `Boolean(isTyping)`; nothing is stored |
| Server.OnMessageDeleted | server/server.js:251-262 | with both ids present the notice reaches exactly the session's members; nothing is checked about the sender and nothing is stored |
| Server.Eligible | server/server.js:282-288 | the listed ids of stored messages whose list lacks the user, in request order (a subsequence of the request) |
| Server.ToMark | server/server.js:282-290 | the changed subset holds each eligible message once, and nothing else, in the order of first request |
| Server.MarkAll | server/server.js:293-296 | exactly the chosen stored messages get the add-if-absent step; the others and the key set are unchanged |
| Server.OnMark | server/server.js:264-346 | a missing session id or an empty or absent id list is a no-op; otherwise each listed message that lacks the user gains it at the end of the list, every other message and field is unchanged, and the session room hears of exactly the changed subset, only when it is non-empty |
| Server.ToggleRow | server/server.js:352-389 | no row: create; same emoji: delete; different emoji: update in place keeping the row id; other keys untouched |
| Server.OnToggleReaction | server/server.js:348-409 | missing fields are a no-op; otherwise the caller's emoji becomes absent when it was this emoji and this emoji otherwise, other reactions are unchanged, and every member hears the emoji now stored (null when toggled off) |
| ServerProperties.InitialValid | server/server.js:36 | a server with no sockets and a consistent message table satisfies the invariant |
| ServerProperties.ConnectPreservesValid | server/server.js:74-79 | after a connection each user still has at most one presence entry and every entry names a live socket of that user |
| ServerProperties.MarkPreservesValid | server/server.js:282-296 | after mark-* no receipt list holds a user twice, even when the request repeats an id |
| ServerProperties.HandlePreservesValid | server/server.js:70-413 | every event keeps the invariant: one presence entry per user naming a live socket of that user, every message filed under its own id, no duplicate in any receipt list |
| ServerProperties.ReceiptsOnlyGrow | server/server.js:282-296 | no event removes a message or any receipt; each list before is a prefix of the list after |
| ServerProperties.MarkIdempotent | server/server.js:282-306 | repeating an identical mark call writes nothing and emits nothing |
| ServerProperties.ToggleTwice | server/server.js:364-389 | toggling the same emoji twice returns the caller's reaction to where it started when that was this emoji, and to absent otherwise |
| ServerProperties.SecondConnectionReplacesFirst | server/server.js:74-79 | after two connections of one user both sockets are live but the user's only presence entry names the second |
| ServerProperties.DisconnectDropsUserWithLiveSocket | server/server.js:411-413 | closing one of a user's two sockets takes the user offline while the other socket stays connected |
| ChatClient.RemoveById | app/chat/page.tsx:244-256 | exactly the messages with other ids remain, in their order (a subsequence of the list) |
| ChatClient.RemoveByIdCount | app/chat/page.tsx:244-256 | every message with another id is kept as many times as it occurred, and none with the id remains |
| ChatClient.RemoveByIdProperties | app/chat/page.tsx:244-256 | no message with the id remains, and a list without repeated ids keeps that property |
| ChatClient.RemoveByIdIdempotent | app/chat/page.tsx:244-256 | removing twice is removing once |
| ChatClient.AppendIfNew | app/chat/page.tsx:176-184 | a message whose id is shown leaves the list unchanged; otherwise it is appended; its id is then shown and unique ids stay unique |
| ChatClient.AppendIfNewIdempotent | app/chat/page.tsx:176-184 | a repeated new-message event leaves the open list as one event does |
| ChatClient.ReplaceById | app/chat/page.tsx:362-378 | same length and ids in place; messages with the updated id become the update, the rest are unchanged |
| ChatClient.ReplaceByIdProperties | app/chat/page.tsx:358-381 | unique ids stay unique, replacing twice is replacing once, and the update appears exactly when its id was shown |
| ChatClient.ApplyReceipts | app/chat/page.tsx:261-324 | same length; only the receipt list of `kind` can change; listed messages then hold the user, appended only when absent; unlisted messages are unchanged |
| ChatClient.ApplyReceiptsProperties | app/chat/page.tsx:261-324 | applying the same receipt event twice equals applying it once, and a list without duplicates never gains one |
| ChatClient.ReactionIndex | app/chat/page.tsx:335 | `findIndex`: the first reaction by the user, or none when there is none |
| ChatClient.RemoveReactionsBy | app/chat/page.tsx:348 | exactly the reactions of other users remain, in order |
| ChatClient.RemoveReactionsByCount | app/chat/page.tsx:348 | every reaction of another user is kept as many times as it occurred, and none of the user's remains |
| ChatClient.ApplyReaction | app/chat/page.tsx:330-352 | a non-empty emoji replaces the emoji of the user's first reaction in place (same position, same id, the other entries untouched), or, when the user has none, appends a reaction with the temporary id at the end; a missing or empty emoji removes every reaction of the user; afterwards the user's shown emoji is the emoji when it is non-empty and nothing otherwise, other users' reactions are neither lost nor invented, and at most one reaction per user is preserved |
| ChatClient.ApplyReactionTo | app/chat/page.tsx:327-352 | only the message with that id has its reactions changed |
| ChatClient.SessionIndex | app/chat/page.tsx:160 | `findIndex`: the first sidebar entry of the session, or none |
| ChatClient.MoveToFront | app/chat/page.tsx:159-173 | an unknown session leaves the sidebar unchanged; otherwise the length is kept, the session is first with `[msg]` ahead of its old preview minus that id, and the rest follow in order |
| ChatClient.MoveToFrontKeepsOthers | app/chat/page.tsx:159-173 | every other session is kept and none is invented, and the rest is a subsequence of the old list |
| ChatClient.MoveToFrontKeepsIds | app/chat/page.tsx:159-173 | the multiset of session ids is unchanged |
| ChatClient.MoveToFrontIdempotent | app/chat/page.tsx:159-173 | the same new-message event delivered twice leaves the sidebar as once |
| ChatClient.MapPreview | app/chat/page.tsx:250-258 | only the previews of entries with that session id change; ids and length are kept |
| ChatClient.BumpUnread | app/chat/page.tsx:187-191 | the session's count goes from absent (0) or n to n + 1; other counts are unchanged |
| ChatClient.ClearUnread | app/chat/page.tsx:490-493 | only that session's entry is removed |
| ChatClient.ClearAfterBump | app/chat/page.tsx:490-493 | selecting a session forgets every earlier bump of its counter |
| ChatClient.UnreadToMark | app/chat/page.tsx:464-466 | the ids listed are exactly those of messages someone else sent whose read list lacks the user |
| ChatClient.ReadReceiptsClearUnread | app/chat/page.tsx:464-473 | once the server echoes the read receipt the page sent, nothing in the conversation is unread |
| ChatClient.OnNewMessage | app/chat/page.tsx:153-217 | the sidebar moves the session to the front; the open conversation appends (if new), or else the session's counter is bumped; delivery is always acknowledged, and reading only when the conversation is open |
| ChatClient.OnUserTyping | app/chat/page.tsx:221-233 | with a conversation open the name is added or removed; otherwise nothing changes |
| ChatClient.OnMessageDeleted | app/chat/page.tsx:241-259 | removes the id from the open list when it is that session and from that session's preview; nothing else changes |
| ChatClient.OnReceiptsUpdated | app/chat/page.tsx:261-324 | applies the receipts to the open list when it is that session and to that session's preview |
| ChatClient.OnReactionUpdated | app/chat/page.tsx:326-356 | only the open list of that session changes; sidebar previews do not |
| ChatClient.OnMessageUpdated | app/chat/page.tsx:358-381 | replaces by id in the open list when it is the message's session and in that session's preview |
| ChatClient.SelectSession | app/chat/page.tsx:483-494 | the session becomes the open conversation, with an empty list and no typing names; only its counter is cleared |
| ChatClient.OnMessagesLoaded | app/chat/page.tsx:455-475 | the list is replaced; one read receipt naming exactly the unread ids is sent when a user is signed in and the list is non-empty, and nothing otherwise |
| ChatClient.ClientHandlePreservesValid | app/chat/page.tsx:153-381 | every page event keeps the open list free of repeated ids, of repeated users in receipt lists, and of a second reaction by one user |
| SessionsRoute.AllParticipants | app/api/sessions/route.ts:99 | the caller first, every requested id, no duplicates, ordered by first occurrence in `[caller, ...ids]` |
| SessionsRoute.Candidates | app/api/sessions/route.ts:104-117 | exactly the sessions all of whose participants are in the list, in table order, each as many times as it occurs in the table |
| SessionsRoute.FirstExactMatch | app/api/sessions/route.ts:119-123 | none exactly when no candidate has as many participants as the list and all of them in it; otherwise the first such candidate |
| SessionsRoute.ExactMatchIsSameSet | app/api/sessions/route.ts:119-123 | with each participant listed once, the test holds exactly when the session's participants are the requested set |
| SessionsRoute.NewSessionRow | app/api/sessions/route.ts:172-180 | one participant row per listed id, in order, with both flags off |
| SessionsRoute.Post | app/api/sessions/route.ts:82-209 | no caller: 401; no array: 400; both change nothing. When a candidate matches exactly, the first such candidate is returned unchanged if it survives the re-read, and 404 is returned if it does not. A new session with exactly the listed participants is appended exactly when no candidate matches |
| SessionsRoute.PostKeepsParticipantsUnique | app/api/sessions/route.ts:99-179 | a table whose sessions list each participant once keeps that property |
| SessionsRoute.UnreadCount | app/api/sessions/route.ts:45-56 | the number of positions holding a message from someone else whose read list lacks the caller; hence at most the number of messages, and zero exactly when none is unread |
| SessionsRoute.UnreadCountMatchesPage | app/api/sessions/route.ts:45-56 | the count equals the number of ids the page marks read when it opens that conversation |
| SessionsRoute.FindParticipant | app/api/sessions/route.ts:62 | `find`: the caller's first membership row, or none |
| SessionsRoute.Summarize | app/api/sessions/route.ts:61-69 | the unread count and the caller's own flags; both flags false without a membership row |
| SessionsRoute.SessionsOf | app/api/sessions/route.ts:12-19 | exactly the stored sessions the caller takes part in |
| SessionsRoute.SessionsOfCount | app/api/sessions/route.ts:12-19 | every session the caller takes part in is kept as many times as it occurs in the table, and no other |
| SessionsRoute.InsertByUpdated | app/api/sessions/route.ts:58 | inserting into a list sorted newest-first keeps it sorted and adds exactly that row |
| SessionsRoute.SortByUpdated | app/api/sessions/route.ts:58 | sorted by updatedAt, newest first, and a permutation of the input |
| SessionsRoute.Get | app/api/sessions/route.ts:5-72 | 401 exactly without a caller; otherwise one summary per caller session, ordered newest activity first |
| SessionsRoute.ListingRowsAreCallerSessions | app/api/sessions/route.ts:12-19 | the rows listed are exactly the caller's sessions |
| Sync.ReceiptBroadcastKeepsViewInSync | server/server.js:282-306 | a page whose open list matched the store matches it again once it applies the receipt broadcast |
| Sync.ReactionBroadcastMatchesStore | server/server.js:391-404 | a page applying the reaction broadcast shows the caller's emoji exactly as the server recorded it |

## Left out

- JWT verification, Prisma, Socket.IO transport and the link-preview HTTP call are left out. They become inputs: the handshake carries the user id the token verifies to, the fetch result is the `fetched` argument, and rooms are sets of names.
- The `sender` relation included in emitted messages, `createdAt`, `updatedAt` of messages, the last-message include of the session list, and its `participants.user` include are left out. They are database projections with no behaviour.
- Database failures are left out (a failing query ends in the handler's catch block). So are foreign-key failures: toggling a reaction on a message that does not exist is not rejected here. The `type` enum validation is left out too.
- Concurrency is left out: the race between reading and writing in mark-* and the detached preview task. The preview task is a separate event, `PreviewFetched`, with no interleaving inside one handler.
- The order of mark-* changed ids is first occurrence in the request. The database returns its rows in an unspecified order.
- The fan-out order is participant table order.
- `SessionsRoute.Candidates` keeps the sessions in table order. The candidate query has no `orderBy`, so the database may return them in another order. When several stored sessions match exactly, which one POST returns is therefore unspecified in the code, and the model returns the first in table order.
- The page's `join-session` and `leave-session` emits (app/chat/page.tsx:393-430) are left out. They come from an effect that runs whenever the open session or the socket connection changes, and the model has no connection state or effect lifecycle. `ChatClient.SelectSession` therefore emits nothing.
- The page's notifications, toasts, connection status, archive/mute/delete-session actions, and the POST to the read endpoint are left out. These are UI, timers and random ids.
- A failed message fetch in the page (`response.ok` false, or a network error) is left out. `ChatClient.OnMessagesLoaded` models only the successful load. On failure the page keeps the empty list it set when the session was selected.
- server/prevServer.js is left out. It is an older variant of the server.
- The other HTTP routes, hooks/useSocket.ts, lib/socket-client.ts and lib/dateUtils.ts are not part of this model.
- The database schema is not part of this model. The exact-match property is therefore stated under the assumption that a session lists each participant at most once, which is true of every session the POST route creates. `SessionsRoute.ExactMatchNeedsUniqueRows` shows the test accepting a session with a repeated row that lacks a requested user.
- `LinkUtils.MatchesAt` folds only ASCII letters for the `i` flag. Without the `u` flag, JavaScript's case-insensitive matching does not map a non-ASCII character onto an ASCII one, so only the ASCII pairs matter for the three prefixes.
- `Server.OnMark` selects messages by id only and never checks session membership, as the handler does. `Server.OnToggleReaction` has no membership check either.
- `Server.OnMessageDeleted` relays the notice with no ownership or membership check, and sends it to each member's personal room, as the handler does.
- `Server.PresenceSet` keeps one entry per user: presence is a map keyed by user id, so a later connection overwrites the earlier entry.

=== FILE: chat_types.dfy ===
/** The records exchanged between server, database and browser (types/chat.ts). */
module ChatTypes {
  import opened Common

  type UserId = string
  type SessionId = string
  type MessageId = string

  /** A user as the server loads it (`id`, `email`, `name`, `picture`). */
  datatype User = User(id: UserId, email: string, name: Option<string>, picture: Option<string>)

  /** The metadata the link-preview service returns for a URL. */
  datatype LinkPreview = LinkPreview(
    url: string, title: string, description: string,
    image: Option<string>, siteName: string, domain: string)

  /** A reaction as the browser holds it inside a message. */
  datatype Reaction = Reaction(id: string, emoji: string, userId: UserId, messageId: MessageId)

  /** A chat message. The server stores `reactions` in a table of their own and
      sends messages with this list empty; the browser fills it. */
  datatype Message = Message(
    id: MessageId,
    sessionId: SessionId,
    senderId: UserId,
    content: string,
    kind: string,
    attachmentUrl: Option<string>,
    fileName: Option<string>,
    fileSize: Option<int>,
    linkPreview: Option<LinkPreview>,
    deliveredTo: seq<UserId>,
    readBy: seq<UserId>,
    reactions: seq<Reaction>)

  /** The two acknowledgement lists a message keeps: `deliveredTo` and `readBy`. */
  datatype Receipt = Delivered | Read

  function Receipts(m: Message, kind: Receipt): seq<UserId> {
    match kind
    case Delivered => m.deliveredTo
    case Read => m.readBy
  }

  /** `m` with the acknowledgement list of `kind` replaced by `users`. */
  function WithReceipts(m: Message, kind: Receipt, users: seq<UserId>): (r: Message)
    ensures Receipts(r, kind) == users
    ensures kind.Delivered? ==> r.readBy == m.readBy
    ensures kind.Read? ==> r.deliveredTo == m.deliveredTo
    ensures r.id == m.id && r.sessionId == m.sessionId && r.senderId == m.senderId
  {
    match kind
    case Delivered => m.(deliveredTo := users)
    case Read => m.(readBy := users)
  }

  /** `m` with `user` appended to the list of `kind` unless it is there already:
      the add-if-absent step both the server and the browser perform. */
  function AddReceipt(m: Message, kind: Receipt, user: UserId): (r: Message)
    ensures user in Receipts(r, kind)
    ensures user in Receipts(m, kind) ==> r == m
    ensures user !in Receipts(m, kind) ==> Receipts(r, kind) == Receipts(m, kind) + [user]
    ensures NoDup(Receipts(m, kind)) ==> NoDup(Receipts(r, kind))
    ensures r == WithReceipts(m, kind, Receipts(r, kind))
  {
    var users := Receipts(m, kind);
    if user in users then m else WithReceipts(m, kind, users + [user])
  }

  /** `m` counts as unread for `user`: someone else sent it and `user` is not in
      its read list. The browser and the session list use the same test. */
  predicate UnreadBy(m: Message, user: UserId) {
    m.senderId != user && user !in m.readBy
  }
}

=== FILE: client.dfy ===
/** The state updates the chat page applies when socket events and fetch results
    arrive: sidebar order, the open conversation's message list, unread counters,
    receipts, reactions, and the receipts the page sends back. */
module ChatClient {
  import opened Common
  import opened ChatTypes

  /** A sidebar entry: a session with its preview messages, newest first.
      The other fields of a session are not touched by these updates. */
  datatype SessionView = SessionView(id: SessionId, preview: seq<Message>)

  /** The page state the socket handlers update. */
  datatype ClientState = ClientState(
    sessions: seq<SessionView>,
    active: Option<SessionId>,
    messages: seq<Message>,
    unread: map<SessionId, nat>,
    typing: set<string>)

  /** The receipts the page sends to the server. */
  datatype ClientEmit =
    | MarkDelivered(sessionId: SessionId, messageIds: seq<MessageId>)
    | MarkRead(sessionId: SessionId, messageIds: seq<MessageId>)

  datatype ClientStep = ClientStep(state: ClientState, emits: seq<ClientEmit>)

  // ---------------------------------------------------------------------------
  // Message lists

  predicate HasId(msgs: seq<Message>, id: MessageId) {
    exists i :: 0 <= i < |msgs| && msgs[i].id == id
  }

  /** No two messages in the list share an id. */
  predicate UniqueIds(msgs: seq<Message>) {
    forall i, j :: 0 <= i < j < |msgs| ==> msgs[i].id != msgs[j].id
  }

  /** `msgs.filter(m => m.id !== id)`. */
  function RemoveById(msgs: seq<Message>, id: MessageId): (r: seq<Message>)
    ensures forall m :: m in r <==> m in msgs && m.id != id
    ensures IsSubsequence(r, msgs)
    decreases |msgs|
  {
    if msgs == [] then []
    else
      var rest := RemoveById(msgs[1..], id);
      if msgs[0].id == id then
        SubsequenceOfTail(rest, msgs);
        rest
      else
        assert ([msgs[0]] + rest)[1..] == rest;
        [msgs[0]] + rest
  }

  /** The filter keeps every message with another id as often as it occurred. */
  lemma {:induction false} RemoveByIdCount(msgs: seq<Message>, id: MessageId)
    ensures forall m :: multiset(RemoveById(msgs, id))[m] == if m.id == id then 0 else multiset(msgs)[m]
    decreases |msgs|
  {
    if msgs != [] {
      RemoveByIdCount(msgs[1..], id);
      FilterConsCount((m: Message) => m.id != id, msgs, RemoveById(msgs[1..], id));
    }
  }

  /** The id is gone, and a list without repeated ids keeps that property. */
  lemma RemoveByIdProperties(msgs: seq<Message>, id: MessageId)
    ensures !HasId(RemoveById(msgs, id), id)
    ensures UniqueIds(msgs) ==> UniqueIds(RemoveById(msgs, id))
  {
    var r := RemoveById(msgs, id);
    assert forall i :: 0 <= i < |r| ==> r[i] in r;
    if UniqueIds(msgs) {
      SubsequenceKeepsUniqueIds(r, msgs);
    }
  }

  lemma {:induction false} SubsequenceKeepsUniqueIds(sub: seq<Message>, msgs: seq<Message>)
    requires IsSubsequence(sub, msgs) && UniqueIds(msgs)
    ensures UniqueIds(sub)
    decreases |msgs|
  {
    if sub != [] {
      assert UniqueIds(msgs[1..]);
      if sub[0] == msgs[0] {
        SubsequenceKeepsUniqueIds(sub[1..], msgs[1..]);
        SubsequenceElements(sub[1..], msgs[1..]);
        forall j | 1 <= j < |sub| ensures sub[0].id != sub[j].id {
          assert sub[j] == sub[1..][j - 1] && sub[1..][j - 1] in sub[1..];
          var k :| 0 <= k < |msgs[1..]| && msgs[1..][k] == sub[j];
          assert msgs[k + 1] == sub[j];
        }
      } else {
        SubsequenceKeepsUniqueIds(sub, msgs[1..]);
      }
    }
  }

  /** Removing twice is removing once. */
  lemma {:induction false} RemoveByIdIdempotent(msgs: seq<Message>, id: MessageId)
    ensures RemoveById(RemoveById(msgs, id), id) == RemoveById(msgs, id)
    decreases |msgs|
  {
    if msgs != [] {
      RemoveByIdIdempotent(msgs[1..], id);
      if msgs[0].id != id {
        var rest := RemoveById(msgs[1..], id);
        assert ([msgs[0]] + rest)[1..] == rest;
      }
    }
  }

  /** The active view's append step: the message joins the end of the list only
      when no message with its id is shown yet. */
  function AppendIfNew(msgs: seq<Message>, m: Message): (r: seq<Message>)
    ensures HasId(msgs, m.id) ==> r == msgs
    ensures !HasId(msgs, m.id) ==> r == msgs + [m]
    ensures HasId(r, m.id)
    ensures UniqueIds(msgs) ==> UniqueIds(r)
  {
    if HasId(msgs, m.id) then msgs
    else
      assert (msgs + [m])[|msgs|].id == m.id;
      msgs + [m]
  }

  lemma AppendIfNewIdempotent(msgs: seq<Message>, m: Message)
    ensures AppendIfNew(AppendIfNew(msgs, m), m) == AppendIfNew(msgs, m)
  {
  }

  /** `msgs.map(msg => msg.id === updated.id ? updated : msg)`. */
  function ReplaceById(msgs: seq<Message>, updated: Message): (r: seq<Message>)
    ensures |r| == |msgs|
    ensures forall i :: 0 <= i < |msgs| ==> r[i].id == msgs[i].id
    ensures forall i :: 0 <= i < |msgs| && msgs[i].id != updated.id ==> r[i] == msgs[i]
    ensures forall i :: 0 <= i < |msgs| && msgs[i].id == updated.id ==> r[i] == updated
  {
    seq(|msgs|, i requires 0 <= i < |msgs| => if msgs[i].id == updated.id then updated else msgs[i])
  }

  /** Replacing keeps every id in place, so a list without repeated ids keeps
      that property, and replacing twice is replacing once. */
  lemma ReplaceByIdProperties(msgs: seq<Message>, updated: Message)
    ensures UniqueIds(msgs) ==> UniqueIds(ReplaceById(msgs, updated))
    ensures ReplaceById(ReplaceById(msgs, updated), updated) == ReplaceById(msgs, updated)
    ensures HasId(msgs, updated.id) <==> updated in ReplaceById(msgs, updated)
  {
  }

  // ---------------------------------------------------------------------------
  // Receipts

  /** The messages-delivered / messages-read update of one list: each listed
      message gains `user` in the list of `kind` unless it already has it. */
  function ApplyReceipts(msgs: seq<Message>, kind: Receipt, ids: seq<MessageId>, user: UserId): (r: seq<Message>)
    ensures |r| == |msgs|
    ensures forall i :: 0 <= i < |msgs| ==> r[i] == WithReceipts(msgs[i], kind, Receipts(r[i], kind))
    ensures forall i :: 0 <= i < |msgs| && msgs[i].id !in ids ==> r[i] == msgs[i]
    ensures forall i :: 0 <= i < |msgs| && msgs[i].id in ids ==>
              && user in Receipts(r[i], kind)
              && (user in Receipts(msgs[i], kind) ==> r[i] == msgs[i])
              && (user !in Receipts(msgs[i], kind) ==> Receipts(r[i], kind) == Receipts(msgs[i], kind) + [user])
  {
    seq(|msgs|, i requires 0 <= i < |msgs| => if msgs[i].id in ids then AddReceipt(msgs[i], kind, user) else msgs[i])
  }

  /** Applying the same receipt event twice equals applying it once, and a
      list without repeated users never gains one. */
  lemma ApplyReceiptsProperties(msgs: seq<Message>, kind: Receipt, ids: seq<MessageId>, user: UserId)
    ensures ApplyReceipts(ApplyReceipts(msgs, kind, ids, user), kind, ids, user) == ApplyReceipts(msgs, kind, ids, user)
    ensures forall i :: 0 <= i < |msgs| && NoDup(Receipts(msgs[i], kind)) ==>
              NoDup(Receipts(ApplyReceipts(msgs, kind, ids, user)[i], kind))
  {
  }

  // ---------------------------------------------------------------------------
  // Reactions

  /** No user has two reactions on the message. */
  predicate AtMostOnePerUser(rs: seq<Reaction>) {
    forall i, j :: 0 <= i < j < |rs| ==> rs[i].userId != rs[j].userId
  }

  /** `rs.findIndex(r => r.userId === user)`, with -1 as None. */
  function ReactionIndex(rs: seq<Reaction>, user: UserId): (r: Option<nat>)
    ensures r.None? <==> forall i :: 0 <= i < |rs| ==> rs[i].userId != user
    ensures r.Some? ==> r.value < |rs| && rs[r.value].userId == user
    ensures r.Some? ==> forall i :: 0 <= i < r.value ==> rs[i].userId != user
    decreases |rs|
  {
    if rs == [] then None
    else if rs[0].userId == user then Some(0)
    else match ReactionIndex(rs[1..], user)
      case None => None
      case Some(k) => Some(k + 1)
  }

  /** The emoji `user` shows on the message: that of their first reaction. */
  function EmojiBy(rs: seq<Reaction>, user: UserId): Option<string> {
    match ReactionIndex(rs, user)
    case None => None
    case Some(k) => Some(rs[k].emoji)
  }

  /** `rs.filter(r => r.userId !== user)`. */
  function RemoveReactionsBy(rs: seq<Reaction>, user: UserId): (r: seq<Reaction>)
    ensures forall x :: x in r <==> x in rs && x.userId != user
    ensures IsSubsequence(r, rs)
    ensures AtMostOnePerUser(rs) ==> AtMostOnePerUser(r)
    decreases |rs|
  {
    if rs == [] then []
    else
      var rest := RemoveReactionsBy(rs[1..], user);
      if rs[0].userId == user then
        SubsequenceOfTail(rest, rs);
        rest
      else
        assert AtMostOnePerUser(rs) ==> (forall x :: x in rest ==> x.userId != rs[0].userId) && AtMostOnePerUser(rs[1..]) by {
          if AtMostOnePerUser(rs) {
            forall x | x in rest ensures x.userId != rs[0].userId {
              var k :| 0 <= k < |rs[1..]| && rs[1..][k] == x;
              assert rs[k + 1] == x;
            }
          }
        }
        assert ([rs[0]] + rest)[1..] == rest;
        [rs[0]] + rest
  }

  /** The filter keeps every reaction of another user as often as it occurred. */
  lemma {:induction false} RemoveReactionsByCount(rs: seq<Reaction>, user: UserId)
    ensures forall x :: multiset(RemoveReactionsBy(rs, user))[x] == if x.userId == user then 0 else multiset(rs)[x]
    decreases |rs|
  {
    if rs != [] {
      RemoveReactionsByCount(rs[1..], user);
      FilterConsCount((x: Reaction) => x.userId != user, rs, RemoveReactionsBy(rs[1..], user));
    }
  }

  /** The reaction-updated step on one message's reactions. A non-empty emoji
      replaces the emoji of the user's first reaction, or appends a reaction
      with the temporary id `freshId`; a missing or empty emoji removes every
      reaction of the user. */
  function ApplyReaction(rs: seq<Reaction>, user: UserId, mid: MessageId, emoji: Option<string>, freshId: string): (r: seq<Reaction>)
    ensures EmojiBy(r, user) == if emoji.Some? && emoji.value != "" then emoji else None
    ensures forall x :: x in rs && x.userId != user ==> x in r
    ensures forall x :: x in r && x.userId != user ==> x in rs
    ensures AtMostOnePerUser(rs) ==> AtMostOnePerUser(r)
    ensures emoji.Some? && emoji.value != "" && ReactionIndex(rs, user).Some? ==>
              var k := ReactionIndex(rs, user).value;
              && |r| == |rs|
              && r[k] == rs[k].(emoji := emoji.value)
              && forall i :: 0 <= i < |rs| && i != k ==> r[i] == rs[i]
    ensures emoji.Some? && emoji.value != "" && ReactionIndex(rs, user).None? ==>
              r == rs + [Reaction(freshId, emoji.value, user, mid)]
    ensures !(emoji.Some? && emoji.value != "") ==> r == RemoveReactionsBy(rs, user)
  {
    if emoji.Some? && emoji.value != "" then
      match ReactionIndex(rs, user)
      case Some(k) =>
        var r := rs[k := rs[k].(emoji := emoji.value)];
        assert ReactionIndex(r, user) == Some(k) by { ReactionIndexUnique(r, user, k); }
        assert forall j :: 0 <= j < |rs| && rs[j].userId != user ==> r[j] == rs[j];
        r
      case None =>
        var r := rs + [Reaction(freshId, emoji.value, user, mid)];
        assert ReactionIndex(r, user) == Some(|rs|) by { ReactionIndexUnique(r, user, |rs|); }
        r
    else
      var r := RemoveReactionsBy(rs, user);
      assert forall i :: 0 <= i < |r| ==> r[i] in r;
      r
  }

  lemma ReactionIndexUnique(rs: seq<Reaction>, user: UserId, k: nat)
    requires k < |rs| && rs[k].userId == user
    requires forall i :: 0 <= i < k ==> rs[i].userId != user
    ensures ReactionIndex(rs, user) == Some(k)
  {
  }

  /** Apply the reaction step to the message with id `mid`. */
  function ApplyReactionTo(msgs: seq<Message>, mid: MessageId, user: UserId, emoji: Option<string>, freshId: string): (r: seq<Message>)
    ensures |r| == |msgs|
    ensures forall i :: 0 <= i < |msgs| && msgs[i].id != mid ==> r[i] == msgs[i]
    ensures forall i :: 0 <= i < |msgs| && msgs[i].id == mid ==>
              r[i] == msgs[i].(reactions := ApplyReaction(msgs[i].reactions, user, mid, emoji, freshId))
  {
    seq(|msgs|, i requires 0 <= i < |msgs| =>
      if msgs[i].id == mid then msgs[i].(reactions := ApplyReaction(msgs[i].reactions, user, mid, emoji, freshId))
      else msgs[i])
  }

  // ---------------------------------------------------------------------------
  // Sidebar

  /** `sessions.findIndex(s => s.id === sid)`, with -1 as None. */
  function SessionIndex(sessions: seq<SessionView>, sid: SessionId): (r: Option<nat>)
    ensures r.None? <==> forall i :: 0 <= i < |sessions| ==> sessions[i].id != sid
    ensures r.Some? ==> r.value < |sessions| && sessions[r.value].id == sid
    ensures r.Some? ==> forall i :: 0 <= i < r.value ==> sessions[i].id != sid
    decreases |sessions|
  {
    if sessions == [] then None
    else if sessions[0].id == sid then Some(0)
    else match SessionIndex(sessions[1..], sid)
      case None => None
      case Some(k) => Some(k + 1)
  }

  /** The new-message update of the sidebar: the message's session moves to the
      top with the message at the head of its preview (any older copy of it
      dropped); a message for an unknown session changes nothing. */
  function MoveToFront(sessions: seq<SessionView>, msg: Message): (r: seq<SessionView>)
    ensures |r| == |sessions|
    ensures SessionIndex(sessions, msg.sessionId).None? ==> r == sessions
    ensures SessionIndex(sessions, msg.sessionId).Some? ==>
              var k := SessionIndex(sessions, msg.sessionId).value;
              && r[0] == SessionView(msg.sessionId, [msg] + RemoveById(sessions[k].preview, msg.id))
              && r[1..] == sessions[..k] + sessions[k + 1..]
  {
    match SessionIndex(sessions, msg.sessionId)
    case None => sessions
    case Some(k) =>
      var s := sessions[k];
      [SessionView(s.id, [msg] + RemoveById(s.preview, msg.id))] + (sessions[..k] + sessions[k + 1..])
  }

  /** Moving to the front keeps every other session, in its relative order. */
  lemma MoveToFrontKeepsOthers(sessions: seq<SessionView>, msg: Message)
    ensures var r := MoveToFront(sessions, msg);
            && (forall s :: s in sessions && s.id != msg.sessionId ==> s in r)
            && (forall s :: s in r && s.id != msg.sessionId ==> s in sessions)
            && (SessionIndex(sessions, msg.sessionId).Some? ==> IsSubsequence(r[1..], sessions))
  {
    var r := MoveToFront(sessions, msg);
    match SessionIndex(sessions, msg.sessionId)
    case None =>
    case Some(k) =>
      var rest := sessions[..k] + sessions[k + 1..];
      assert r[1..] == rest;
      forall s | s in sessions && s.id != msg.sessionId ensures s in rest {
        var j :| 0 <= j < |sessions| && sessions[j] == s;
        if j < k { assert rest[j] == s; } else { assert rest[j - 1] == s; }
      }
      DropOneIsSubsequence(sessions, k);
  }

  lemma {:induction false} DropOneIsSubsequence<T>(s: seq<T>, k: nat)
    requires k < |s|
    ensures IsSubsequence(s[..k] + s[k + 1..], s)
    ensures forall x :: x in s[..k] + s[k + 1..] ==> x in s
    decreases k
  {
    if k == 0 {
      assert s[..0] + s[1..] == s[1..];
      SubsequenceReflexive(s[1..]);
      SubsequenceOfTail(s[1..], s);
    } else {
      DropOneIsSubsequence(s[1..], k - 1);
      var d := s[1..][..k - 1] + s[1..][k..];
      assert s[..k] + s[k + 1..] == [s[0]] + d;
      assert ([s[0]] + d)[1..] == d;
    }
  }

  lemma {:induction false} SubsequenceReflexive<T>(s: seq<T>)
    ensures IsSubsequence(s, s)
    decreases |s|
  {
    if s != [] {
      SubsequenceReflexive(s[1..]);
    }
  }

  /** Moving to the front keeps the multiset of session ids. */
  lemma MoveToFrontKeepsIds(sessions: seq<SessionView>, msg: Message)
    ensures multiset(SessionIds(MoveToFront(sessions, msg))) == multiset(SessionIds(sessions))
  {
    var r := MoveToFront(sessions, msg);
    match SessionIndex(sessions, msg.sessionId)
    case None =>
    case Some(k) =>
      var ids := SessionIds(sessions);
      var before, after := sessions[..k], sessions[k + 1..];
      assert r == [r[0]] + (before + after);
      SessionIdsAppend([r[0]], before + after);
      SessionIdsAppend(before, after);
      assert SessionIds(before) == ids[..k];
      assert SessionIds(after) == ids[k + 1..];
      assert SessionIds([r[0]]) == [ids[k]];
      assert ids == ids[..k] + [ids[k]] + ids[k + 1..];
  }

  /** The same new-message event delivered twice leaves the sidebar as once. */
  lemma MoveToFrontIdempotent(sessions: seq<SessionView>, msg: Message)
    ensures MoveToFront(MoveToFront(sessions, msg), msg) == MoveToFront(sessions, msg)
  {
    var r := MoveToFront(sessions, msg);
    if SessionIndex(sessions, msg.sessionId).Some? {
      var k := SessionIndex(sessions, msg.sessionId).value;
      assert SessionIndex(r, msg.sessionId) == Some(0);
      RemoveByIdIdempotent(sessions[k].preview, msg.id);
      assert RemoveById([msg] + RemoveById(sessions[k].preview, msg.id), msg.id) == RemoveById(sessions[k].preview, msg.id) by {
        assert ([msg] + RemoveById(sessions[k].preview, msg.id))[1..] == RemoveById(sessions[k].preview, msg.id);
      }
      assert r[..0] + r[1..] == r[1..];
    }
  }

  function SessionIds(sessions: seq<SessionView>): (r: seq<SessionId>)
    ensures |r| == |sessions| && forall i :: 0 <= i < |sessions| ==> r[i] == sessions[i].id
  {
    seq(|sessions|, i requires 0 <= i < |sessions| => sessions[i].id)
  }

  lemma SessionIdsAppend(a: seq<SessionView>, b: seq<SessionView>)
    ensures SessionIds(a + b) == SessionIds(a) + SessionIds(b)
  {
  }

  /** Apply `f` to the preview of every sidebar entry with id `sid`. */
  function MapPreview(sessions: seq<SessionView>, sid: SessionId, f: seq<Message> -> seq<Message>): (r: seq<SessionView>)
    ensures |r| == |sessions|
    ensures forall i :: 0 <= i < |sessions| ==> r[i].id == sessions[i].id
    ensures forall i :: 0 <= i < |sessions| && sessions[i].id != sid ==> r[i] == sessions[i]
    ensures forall i :: 0 <= i < |sessions| && sessions[i].id == sid ==> r[i].preview == f(sessions[i].preview)
  {
    seq(|sessions|, i requires 0 <= i < |sessions| =>
      if sessions[i].id == sid then sessions[i].(preview := f(sessions[i].preview)) else sessions[i])
  }

  // ---------------------------------------------------------------------------
  // Unread counters

  /** A session's counter goes from absent-or-n to n + 1. */
  function BumpUnread(unread: map<SessionId, nat>, sid: SessionId): (r: map<SessionId, nat>)
    ensures r.Keys == unread.Keys + {sid}
    ensures sid in unread ==> r[sid] == unread[sid] + 1
    ensures sid !in unread ==> r[sid] == 1
    ensures forall s :: s in unread && s != sid ==> r[s] == unread[s]
  {
    unread[sid := (if sid in unread then unread[sid] else 0) + 1]
  }

  /** Selecting a session drops its counter and no other. */
  function ClearUnread(unread: map<SessionId, nat>, sid: SessionId): (r: map<SessionId, nat>)
    ensures r.Keys == unread.Keys - {sid}
    ensures forall s :: s in r ==> r[s] == unread[s]
  {
    unread - {sid}
  }

  /** Clearing forgets any number of earlier bumps. */
  lemma ClearAfterBump(unread: map<SessionId, nat>, sid: SessionId)
    ensures ClearUnread(BumpUnread(unread, sid), sid) == ClearUnread(unread, sid)
  {
  }

  /** The messages the page marks as read when it loads a conversation: those
      that are unread for `user`, in list order. */
  function UnreadToMark(msgs: seq<Message>, user: UserId): (r: seq<MessageId>)
    ensures |r| <= |msgs|
    ensures forall i :: 0 <= i < |msgs| && UnreadBy(msgs[i], user) ==> msgs[i].id in r
    ensures forall id :: id in r ==> exists i :: 0 <= i < |msgs| && msgs[i].id == id && UnreadBy(msgs[i], user)
    decreases |msgs|
  {
    if msgs == [] then []
    else
      var rest := UnreadToMark(msgs[1..], user);
      assert forall id :: id in rest ==> exists i :: 0 <= i < |msgs| && msgs[i].id == id && UnreadBy(msgs[i], user) by {
        forall id | id in rest ensures exists i :: 0 <= i < |msgs| && msgs[i].id == id && UnreadBy(msgs[i], user) {
          var j :| 0 <= j < |msgs[1..]| && msgs[1..][j].id == id && UnreadBy(msgs[1..][j], user);
          assert msgs[j + 1] == msgs[1..][j];
        }
      }
      assert forall i :: 1 <= i < |msgs| ==> msgs[i] == msgs[1..][i - 1];
      if UnreadBy(msgs[0], user) then [msgs[0].id] + rest else rest
  }

  /** The read receipts the page sends for a conversation, once the server
      echoes them back, leave nothing in it unread. */
  lemma ReadReceiptsClearUnread(msgs: seq<Message>, user: UserId)
    ensures UnreadToMark(ApplyReceipts(msgs, Read, UnreadToMark(msgs, user), user), user) == []
  {
    var ids := UnreadToMark(msgs, user);
    var after := ApplyReceipts(msgs, Read, ids, user);
    forall i | 0 <= i < |after| ensures !UnreadBy(after[i], user) {
      if UnreadBy(msgs[i], user) {
        assert msgs[i].id in ids;
      } else if msgs[i].id in ids {
        assert user in after[i].readBy;
      }
    }
    NothingUnreadMeansEmpty(after, user);
  }

  lemma {:induction false} NothingUnreadMeansEmpty(msgs: seq<Message>, user: UserId)
    requires forall i :: 0 <= i < |msgs| ==> !UnreadBy(msgs[i], user)
    ensures UnreadToMark(msgs, user) == []
    decreases |msgs|
  {
    if msgs != [] {
      assert forall i :: 0 <= i < |msgs[1..]| ==> msgs[1..][i] == msgs[i + 1];
      NothingUnreadMeansEmpty(msgs[1..], user);
    }
  }

  // ---------------------------------------------------------------------------
  // Socket events and page actions

  /** The open conversation is `sid`. */
  predicate IsActive(cs: ClientState, sid: SessionId) {
    cs.active.Some? && cs.active.value == sid
  }

  /** new-message: reorder the sidebar; append to the open conversation or bump
      the unread counter; acknowledge delivery, and reading when it is open. */
  function OnNewMessage(cs: ClientState, msg: Message): (r: ClientStep)
    ensures r.state.sessions == MoveToFront(cs.sessions, msg)
    ensures r.state.active == cs.active && r.state.typing == cs.typing
    ensures IsActive(cs, msg.sessionId) ==> r.state.messages == AppendIfNew(cs.messages, msg) && r.state.unread == cs.unread
    ensures !IsActive(cs, msg.sessionId) ==> r.state.messages == cs.messages && r.state.unread == BumpUnread(cs.unread, msg.sessionId)
    ensures |r.emits| == (if IsActive(cs, msg.sessionId) then 2 else 1)
    ensures r.emits[0] == MarkDelivered(msg.sessionId, [msg.id])
    ensures IsActive(cs, msg.sessionId) ==> r.emits[1] == MarkRead(msg.sessionId, [msg.id])
  {
    var sessions := MoveToFront(cs.sessions, msg);
    var delivered := MarkDelivered(msg.sessionId, [msg.id]);
    if IsActive(cs, msg.sessionId) then
      ClientStep(cs.(sessions := sessions, messages := AppendIfNew(cs.messages, msg)),
                 [delivered, MarkRead(msg.sessionId, [msg.id])])
    else
      ClientStep(cs.(sessions := sessions, unread := BumpUnread(cs.unread, msg.sessionId)), [delivered])
  }

  /** user-typing: while a conversation is open, add or drop the display name. */
  function OnUserTyping(cs: ClientState, userName: string, isTyping: bool): (r: ClientState)
    ensures cs.active.None? ==> r == cs
    ensures cs.active.Some? && isTyping ==> r.typing == cs.typing + {userName}
    ensures cs.active.Some? && !isTyping ==> r.typing == cs.typing - {userName}
    ensures r == cs.(typing := r.typing)
  {
    if cs.active.None? then cs
    else if isTyping then cs.(typing := cs.typing + {userName})
    else cs.(typing := cs.typing - {userName})
  }

  /** message-deleted: drop the message from the open conversation when it is
      `sid`, and from `sid`'s sidebar preview. */
  function OnMessageDeleted(cs: ClientState, sid: SessionId, mid: MessageId): (r: ClientState)
    ensures IsActive(cs, sid) ==> r.messages == RemoveById(cs.messages, mid)
    ensures !IsActive(cs, sid) ==> r.messages == cs.messages
    ensures r.sessions == MapPreview(cs.sessions, sid, p => RemoveById(p, mid))
    ensures r == cs.(messages := r.messages, sessions := r.sessions)
  {
    cs.(messages := if IsActive(cs, sid) then RemoveById(cs.messages, mid) else cs.messages,
        sessions := MapPreview(cs.sessions, sid, p => RemoveById(p, mid)))
  }

  /** messages-delivered / messages-read. */
  function OnReceiptsUpdated(cs: ClientState, kind: Receipt, sid: SessionId, ids: seq<MessageId>, user: UserId): (r: ClientState)
    ensures IsActive(cs, sid) ==> r.messages == ApplyReceipts(cs.messages, kind, ids, user)
    ensures !IsActive(cs, sid) ==> r.messages == cs.messages
    ensures r.sessions == MapPreview(cs.sessions, sid, p => ApplyReceipts(p, kind, ids, user))
    ensures r == cs.(messages := r.messages, sessions := r.sessions)
  {
    cs.(messages := if IsActive(cs, sid) then ApplyReceipts(cs.messages, kind, ids, user) else cs.messages,
        sessions := MapPreview(cs.sessions, sid, p => ApplyReceipts(p, kind, ids, user)))
  }

  /** reaction-updated: only the open conversation is updated; the sidebar
      previews keep their reactions. `freshId` stands for the random temporary id. */
  function OnReactionUpdated(cs: ClientState, sid: SessionId, mid: MessageId, user: UserId, emoji: Option<string>, freshId: string): (r: ClientState)
    ensures IsActive(cs, sid) ==> r.messages == ApplyReactionTo(cs.messages, mid, user, emoji, freshId)
    ensures r == cs.(messages := r.messages)
    ensures !IsActive(cs, sid) ==> r == cs
  {
    if IsActive(cs, sid) then cs.(messages := ApplyReactionTo(cs.messages, mid, user, emoji, freshId)) else cs
  }

  /** message-updated: replace by id in the open conversation when it is the
      message's session, and in that session's sidebar preview. */
  function OnMessageUpdated(cs: ClientState, updated: Message): (r: ClientState)
    ensures IsActive(cs, updated.sessionId) ==> r.messages == ReplaceById(cs.messages, updated)
    ensures !IsActive(cs, updated.sessionId) ==> r.messages == cs.messages
    ensures r.sessions == MapPreview(cs.sessions, updated.sessionId, p => ReplaceById(p, updated))
    ensures r == cs.(messages := r.messages, sessions := r.sessions)
  {
    cs.(messages := if IsActive(cs, updated.sessionId) then ReplaceById(cs.messages, updated) else cs.messages,
        sessions := MapPreview(cs.sessions, updated.sessionId, p => ReplaceById(p, updated)))
  }

  /** Selecting a session: it becomes the open conversation with an empty list
      and no typing names, and only its unread counter is dropped. */
  function SelectSession(cs: ClientState, sid: SessionId): (r: ClientState)
    ensures IsActive(r, sid)
    ensures r.messages == [] && r.typing == {}
    ensures r.unread == ClearUnread(cs.unread, sid)
    ensures r.sessions == cs.sessions
  {
    ClientState(cs.sessions, Some(sid), [], ClearUnread(cs.unread, sid), {})
  }

  /** The conversation's messages arrive from the server: show them, and when
      the page has a signed-in user with a socket (`viewer`), send one read
      receipt listing the messages still unread for that user, if any. */
  function OnMessagesLoaded(cs: ClientState, sid: SessionId, msgs: seq<Message>, viewer: Option<UserId>): (r: ClientStep)
    ensures r.state == cs.(messages := msgs)
    ensures r.emits != [] <==> viewer.Some? && UnreadToMark(msgs, viewer.value) != []
    ensures r.emits != [] ==> r.emits == [MarkRead(sid, UnreadToMark(msgs, viewer.value))]
  {
    var st := cs.(messages := msgs);
    if viewer.Some? && UnreadToMark(msgs, viewer.value) != [] then
      ClientStep(st, [MarkRead(sid, UnreadToMark(msgs, viewer.value))])
    else ClientStep(st, [])
  }

  // ---------------------------------------------------------------------------
  // The page as a state machine

  datatype ClientEvent =
    | GotNewMessage(msg: Message)
    | GotTyping(userName: string, isTyping: bool)
    | GotDeleted(sessionId: SessionId, messageId: MessageId)
    | GotReceipts(kind: Receipt, sessionId: SessionId, messageIds: seq<MessageId>, userId: UserId)
    | GotReaction(sessionId: SessionId, messageId: MessageId, userId: UserId, emoji: Option<string>, freshId: string)
    | GotUpdated(msg: Message)
    | Selected(sessionId: SessionId)
    | Loaded(sessionId: SessionId, msgs: seq<Message>, viewer: Option<UserId>)

  function ClientHandle(cs: ClientState, ev: ClientEvent): ClientStep {
    match ev
    case GotNewMessage(msg) => OnNewMessage(cs, msg)
    case GotTyping(name, isTyping) => ClientStep(OnUserTyping(cs, name, isTyping), [])
    case GotDeleted(sid, mid) => ClientStep(OnMessageDeleted(cs, sid, mid), [])
    case GotReceipts(kind, sid, ids, user) => ClientStep(OnReceiptsUpdated(cs, kind, sid, ids, user), [])
    case GotReaction(sid, mid, user, emoji, freshId) => ClientStep(OnReactionUpdated(cs, sid, mid, user, emoji, freshId), [])
    case GotUpdated(msg) => ClientStep(OnMessageUpdated(cs, msg), [])
    case Selected(sid) => ClientStep(SelectSession(cs, sid), [])
    case Loaded(sid, msgs, viewer) => OnMessagesLoaded(cs, sid, msgs, viewer)
  }

  /** A message as the server sends it: no user twice in either receipt list,
      at most one reaction per user. */
  predicate WellFormed(m: Message) {
    NoDup(m.deliveredTo) && NoDup(m.readBy) && AtMostOnePerUser(m.reactions)
  }

  /** The open conversation shows each message once and every shown message is well formed. */
  predicate ClientValid(cs: ClientState) {
    UniqueIds(cs.messages) && forall i :: 0 <= i < |cs.messages| ==> WellFormed(cs.messages[i])
  }

  /** What the server guarantees about the messages it sends. */
  predicate FromServer(ev: ClientEvent) {
    match ev
    case GotNewMessage(msg) => WellFormed(msg)
    case GotUpdated(msg) => WellFormed(msg)
    case Loaded(_, msgs, _) => UniqueIds(msgs) && forall i :: 0 <= i < |msgs| ==> WellFormed(msgs[i])
    case _ => true
  }

  lemma {:induction false} ClientHandlePreservesValid(cs: ClientState, ev: ClientEvent)
    requires ClientValid(cs) && FromServer(ev)
    ensures ClientValid(ClientHandle(cs, ev).state)
  {
    var r := ClientHandle(cs, ev).state;
    match ev
    case GotNewMessage(msg) =>
      if IsActive(cs, msg.sessionId) && !HasId(cs.messages, msg.id) {
        assert r.messages == cs.messages + [msg];
      }
    case GotTyping(_, _) =>
    case GotDeleted(sid, mid) =>
      if IsActive(cs, sid) {
        RemoveByIdProperties(cs.messages, mid);
        forall i | 0 <= i < |r.messages| ensures WellFormed(r.messages[i]) {
          assert r.messages[i] in r.messages;
        }
      }
    case GotReceipts(kind, sid, ids, user) =>
      if IsActive(cs, sid) {
        forall i | 0 <= i < |r.messages| ensures WellFormed(r.messages[i]) {
          var m := cs.messages[i];
          if m.id in ids {
            assert r.messages[i] == AddReceipt(m, kind, user);
            assert NoDup(Receipts(m, Delivered)) && NoDup(Receipts(m, Read));
          }
        }
      }
    case GotReaction(sid, mid, user, emoji, freshId) =>
    case GotUpdated(msg) =>
      ReplaceByIdProperties(cs.messages, msg);
    case Selected(_) =>
    case Loaded(_, _, _) =>
  }
}

=== FILE: common.dfy ===
/** Small building blocks shared by every part of the model: optional values,
    duplicate-free sequences, JavaScript whitespace and `String.prototype.trim`,
    and JavaScript truthiness. */
module Common {

  /** The conventional Some/None datatype, standing for `T | null | undefined`. */
  datatype Option<+T> = None | Some(value: T)

  /** A sequence in which no element occurs twice. */
  predicate NoDup<T(==)>(s: seq<T>) {
    forall i, j :: 0 <= i < j < |s| ==> s[i] != s[j]
  }

  /** `sub` keeps some of the elements of `s`, in the order they have in `s`. */
  predicate IsSubsequence<T(==)>(sub: seq<T>, s: seq<T>)
    decreases |s|
  {
    if sub == [] then true
    else if s == [] then false
    else if sub[0] == s[0] then IsSubsequence(sub[1..], s[1..])
    else IsSubsequence(sub, s[1..])
  }

  lemma {:induction false} SubsequenceElements<T>(sub: seq<T>, s: seq<T>)
    requires IsSubsequence(sub, s)
    ensures forall x :: x in sub ==> x in s
    decreases |s|
  {
    if sub != [] && s != [] {
      if sub[0] == s[0] {
        SubsequenceElements(sub[1..], s[1..]);
        assert forall x :: x in sub ==> x == sub[0] || x in sub[1..];
      } else {
        SubsequenceElements(sub, s[1..]);
      }
    }
  }

  /** The position of the first occurrence of `x` in `s`. */
  function FirstIndex<T(==)>(s: seq<T>, x: T): (n: nat)
    requires x in s
    ensures n < |s| && s[n] == x
    ensures forall k :: 0 <= k < n ==> s[k] != x
    decreases |s|
  {
    if s[0] == x then 0 else 1 + FirstIndex(s[1..], x)
  }

  /** The elements of `r` all occur in `s`, and they appear in `r` in the
      order of their first occurrences in `s`. */
  predicate InFirstOccurrenceOrder<T(==)>(r: seq<T>, s: seq<T>) {
    && (forall i :: 0 <= i < |r| ==> r[i] in s)
    && (forall i, j :: 0 <= i < j < |r| ==> FirstIndex(s, r[i]) < FirstIndex(s, r[j]))
  }

  /** The elements of `s` with later repetitions dropped, in first-occurrence
      order: the behaviour of `[...new Set(s)]`, which inserts the elements of
      `s` one after the other and ignores those already present. */
  function Dedupe<T(==,!new)>(s: seq<T>): (r: seq<T>)
    ensures NoDup(r)
    ensures forall x :: x in r <==> x in s
    ensures InFirstOccurrenceOrder(r, s)
    ensures IsSubsequence(r, s)
    ensures |s| > 0 ==> |r| > 0 && r[0] == s[0]
    decreases |s|
  {
    if s == [] then []
    else
      var init := s[..|s| - 1];
      var last := s[|s| - 1];
      assert s == init + [last];
      var p := Dedupe(init);
      OrderOnPrefix(p, init, last);
      if last in p then
        SubsequenceAppend(p, init, [], [last]);
        assert p + [] == p;
        p
      else
        SubsequenceAppend(p, init, [last], [last]);
        OrderAppendNew(p, init, last);
        p + [last]
  }

  /** An order by first occurrence in `init` is one in `init + [last]` too. */
  lemma OrderOnPrefix<T>(p: seq<T>, init: seq<T>, last: T)
    requires InFirstOccurrenceOrder(p, init)
    ensures InFirstOccurrenceOrder(p, init + [last])
  {
    var s := init + [last];
    assert init == s[..|s| - 1];
    forall x | x in init ensures FirstIndex(s, x) == FirstIndex(init, x) {
      FirstIndexPrefix(s, |s| - 1, x);
    }
  }

  /** A value new to `init` comes after everything in `init`. */
  lemma OrderAppendNew<T>(p: seq<T>, init: seq<T>, last: T)
    requires InFirstOccurrenceOrder(p, init) && last !in init
    ensures InFirstOccurrenceOrder(p + [last], init + [last])
  {
    var s := init + [last];
    OrderOnPrefix(p, init, last);
    assert forall k :: 0 <= k < |init| ==> s[k] != last by {
      forall k | 0 <= k < |init| ensures s[k] != last { assert s[k] == init[k]; }
    }
    assert FirstIndex(s, last) == |init|;
    assert init == s[..|s| - 1];
    forall i | 0 <= i < |p| ensures FirstIndex(s, p[i]) < |init| {
      FirstIndexPrefix(s, |s| - 1, p[i]);
    }
    var r := p + [last];
    assert forall i :: 0 <= i < |p| ==> r[i] == p[i];
  }

  /** Dedupe is the only duplicate-free ordering of the elements of `s` by
      first occurrence. */
  lemma DedupeIsUnique<T(!new)>(s: seq<T>, r: seq<T>)
    requires NoDup(r)
    requires forall x :: x in r <==> x in s
    requires InFirstOccurrenceOrder(r, s)
    ensures r == Dedupe(s)
  {
    var d := Dedupe(s);
    NoDupCard(r);
    NoDupCard(d);
    assert (set x | x in r) == (set x | x in d);
    OrderedByFirstIndexUnique(s, r, d);
  }

  lemma {:induction false} NoDupCard<T>(s: seq<T>)
    requires NoDup(s)
    ensures |set x | x in s| == |s|
    decreases |s|
  {
    if s != [] {
      NoDupCard(s[1..]);
      assert (set x | x in s) == {s[0]} + (set x | x in s[1..]);
      assert s[0] !in (set x | x in s[1..]);
    }
  }

  lemma {:induction false} OrderedByFirstIndexUnique<T>(s: seq<T>, a: seq<T>, b: seq<T>)
    requires NoDup(a) && NoDup(b) && |a| == |b|
    requires forall x :: x in a <==> x in b
    requires InFirstOccurrenceOrder(a, s) && InFirstOccurrenceOrder(b, s)
    ensures a == b
    decreases |a|
  {
    if a != [] {
      HeadComesFirst(a, s);
      HeadComesFirst(b, s);
      assert a[0] in b && b[0] in a;
      assert FirstIndex(s, a[0]) == FirstIndex(s, b[0]);
      TailsAgree(a, b);
      TailOrder(a, s);
      TailOrder(b, s);
      OrderedByFirstIndexUnique(s, a[1..], b[1..]);
      assert a == [a[0]] + a[1..] && b == [b[0]] + b[1..];
    }
  }

  lemma HeadComesFirst<T>(a: seq<T>, s: seq<T>)
    requires a != [] && InFirstOccurrenceOrder(a, s)
    ensures forall i :: 0 <= i < |a| ==> FirstIndex(s, a[0]) <= FirstIndex(s, a[i])
  {
  }

  lemma TailOrder<T>(a: seq<T>, s: seq<T>)
    requires a != [] && InFirstOccurrenceOrder(a, s)
    ensures InFirstOccurrenceOrder(a[1..], s)
  {
    assert forall i :: 0 <= i < |a[1..]| ==> a[1..][i] == a[i + 1];
  }

  lemma TailsAgree<T>(a: seq<T>, b: seq<T>)
    requires a != [] && b != [] && a[0] == b[0] && NoDup(a) && NoDup(b)
    requires forall x :: x in a <==> x in b
    ensures forall x :: x in a[1..] <==> x in b[1..]
  {
    forall x | x in a[1..] ensures x in b[1..] {
      var i :| 0 <= i < |a[1..]| && a[1..][i] == x;
      assert a[i + 1] == x && x != a[0];
      assert x in a;
      assert x in b;
      var j :| 0 <= j < |b| && b[j] == x;
      assert b[1..][j - 1] == x;
    }
    forall x | x in b[1..] ensures x in a[1..] {
      var j :| 0 <= j < |b[1..]| && b[1..][j] == x;
      assert b[j + 1] == x && x != b[0];
      assert x in b;
      assert x in a;
      var i :| 0 <= i < |a| && a[i] == x;
      assert a[1..][i - 1] == x;
    }
  }

  /** A first occurrence inside a prefix is the first occurrence in the whole. */
  lemma FirstIndexPrefix<T>(s: seq<T>, n: nat, x: T)
    requires n <= |s| && x in s[..n]
    ensures x in s && FirstIndex(s, x) == FirstIndex(s[..n], x)
  {
    var b := FirstIndex(s[..n], x);
    assert s[b] == s[..n][b];
    assert forall k :: 0 <= k < b ==> s[k] != x by {
      forall k | 0 <= k < b ensures s[k] != x {
        assert s[k] == s[..n][k];
      }
    }
    var a := FirstIndex(s, x);
    assert !(b < a) && !(a < b);
  }

  /** `s` with every occurrence of `x` removed. */
  function Without<T(==,!new)>(s: seq<T>, x: T): (r: seq<T>)
    ensures forall y :: y in r <==> y in s && y != x
    ensures NoDup(s) ==> NoDup(r)
    ensures |r| <= |s|
    decreases |s|
  {
    if s == [] then []
    else if s[0] == x then Without(s[1..], x)
    else
      var rest := Without(s[1..], x);
      assert NoDup(s) ==> s[0] !in s[1..] && NoDup(s[1..]);
      [s[0]] + rest
  }

  lemma {:induction false} WithoutSubsequence<T(!new)>(s: seq<T>, x: T)
    ensures IsSubsequence(Without(s, x), s)
    decreases |s|
  {
    if s != [] {
      WithoutSubsequence(s[1..], x);
      if s[0] != x {
        assert ([s[0]] + Without(s[1..], x))[1..] == Without(s[1..], x);
      } else {
        SubsequenceOfTail(Without(s[1..], x), s);
      }
    }
  }

  lemma {:induction false} SubsequenceOfTail<T>(sub: seq<T>, s: seq<T>)
    requires s != [] && IsSubsequence(sub, s[1..])
    ensures IsSubsequence(sub, s)
    decreases |s|, 0
  {
    if sub != [] && sub[0] == s[0] {
      // sub[1..] is a subsequence of s[1..] because sub is
      SubsequenceDropHead(sub, s[1..]);
    }
  }

  lemma {:induction false} SubsequenceDropHead<T>(sub: seq<T>, s: seq<T>)
    requires sub != [] && IsSubsequence(sub, s)
    ensures IsSubsequence(sub[1..], s)
    decreases |s|, 1
  {
    if s != [] {
      if sub[0] == s[0] {
        SubsequenceOfTail(sub[1..], s);
      } else {
        SubsequenceDropHead(sub, s[1..]);
        SubsequenceOfTail(sub[1..], s);
      }
    }
  }

  lemma {:induction false} SubsequenceTransitive<T>(a: seq<T>, b: seq<T>, c: seq<T>)
    requires IsSubsequence(a, b) && IsSubsequence(b, c)
    ensures IsSubsequence(a, c)
    decreases |c|
  {
    if a != [] && c != [] {
      if b[0] == c[0] {
        if a[0] == b[0] {
          SubsequenceTransitive(a[1..], b[1..], c[1..]);
        } else {
          SubsequenceTransitive(a, b[1..], c[1..]);
          SubsequenceOfTail(a, c);
        }
      } else {
        SubsequenceTransitive(a, b, c[1..]);
        SubsequenceOfTail(a, c);
      }
    }
  }

  /** One step of a filter keeps the count of every element: an element the
      filter keeps occurs as often as in the input, any other not at all. */
  lemma FilterConsCount<T>(keep: T -> bool, s: seq<T>, rest: seq<T>)
    requires s != []
    requires forall x :: multiset(rest)[x] == if keep(x) then multiset(s[1..])[x] else 0
    ensures var r := if keep(s[0]) then [s[0]] + rest else rest;
            forall x :: multiset(r)[x] == if keep(x) then multiset(s)[x] else 0
  {
    assert s == [s[0]] + s[1..];
    assert multiset(s) == multiset{s[0]} + multiset(s[1..]);
    assert multiset([s[0]] + rest) == multiset{s[0]} + multiset(rest);
  }

  /** Subsequences concatenate. */
  lemma {:induction false} SubsequenceAppend<T>(a: seq<T>, b: seq<T>, c: seq<T>, d: seq<T>)
    requires IsSubsequence(a, b) && IsSubsequence(c, d)
    ensures IsSubsequence(a + c, b + d)
    decreases |b|
  {
    if a == [] {
      assert a + c == c;
      SubsequenceExtendFront(c, b, d);
    } else {
      assert (a + c)[0] == a[0] && (a + c)[1..] == a[1..] + c;
      assert (b + d)[0] == b[0] && (b + d)[1..] == b[1..] + d;
      if a[0] == b[0] {
        SubsequenceAppend(a[1..], b[1..], c, d);
      } else {
        SubsequenceAppend(a, b[1..], c, d);
      }
    }
  }

  lemma {:induction false} SubsequenceExtendFront<T>(c: seq<T>, b: seq<T>, d: seq<T>)
    requires IsSubsequence(c, d)
    ensures IsSubsequence(c, b + d)
    decreases |b|
  {
    if b == [] {
      assert b + d == d;
    } else {
      SubsequenceExtendFront(c, b[1..], d);
      assert (b + d)[1..] == b[1..] + d;
      SubsequenceOfTail(c, b + d);
    }
  }

  /** The characters JavaScript's `\s` and `String.prototype.trim` treat as
      white space: WhiteSpace and LineTerminator of ECMA-262 section 12.2-12.3. */
  predicate IsSpace(c: char) {
    var n := c as int;
    n == 0x09 || n == 0x0A || n == 0x0B || n == 0x0C || n == 0x0D || n == 0x20
    || n == 0xA0 || n == 0x1680 || (0x2000 <= n <= 0x200A)
    || n == 0x2028 || n == 0x2029 || n == 0x202F || n == 0x205F
    || n == 0x3000 || n == 0xFEFF
  }

  /** Index of the first non-space character of `s` (|s| when there is none). */
  function LeadingSpaces(s: string): (n: nat)
    ensures n <= |s|
    ensures forall k :: 0 <= k < n ==> IsSpace(s[k])
    ensures n < |s| ==> !IsSpace(s[n])
    decreases |s|
  {
    if s == [] || !IsSpace(s[0]) then 0 else 1 + LeadingSpaces(s[1..])
  }

  /** Index just past the last non-space character of `s` (0 when there is none). */
  function TrailingEnd(s: string): (n: nat)
    ensures n <= |s|
    ensures forall k :: n <= k < |s| ==> IsSpace(s[k])
    ensures n > 0 ==> !IsSpace(s[n - 1])
    decreases |s|
  {
    if s == [] || !IsSpace(s[|s| - 1]) then |s| else TrailingEnd(s[..|s| - 1])
  }

  /** `s.trim()`: drop leading and trailing white space. */
  function Trim(s: string): (r: string)
    ensures r == [] <==> forall k :: 0 <= k < |s| ==> IsSpace(s[k])
    ensures r != [] ==> !IsSpace(r[0]) && !IsSpace(r[|r| - 1])
    ensures r != [] ==> r == s[LeadingSpaces(s)..TrailingEnd(s)]
  {
    var a := LeadingSpaces(s);
    var b := TrailingEnd(s);
    if a < b then s[a..b] else []
  }

  /** A loosely typed value received from a client, as far as the handlers look at it. */
  datatype JsValue = Undefined | Null | JsBool(b: bool) | JsNumber(n: int) | JsString(s: string) | JsObject

  /** `Boolean(v)`: JavaScript truthiness. */
  predicate Truthy(v: JsValue) {
    match v
    case Undefined => false
    case Null => false
    case JsBool(b) => b
    case JsNumber(n) => n != 0
    case JsString(s) => s != ""
    case JsObject => true
  }

  /** `x || null` on a string field: the empty string becomes null. */
  function StringOrNull(x: string): (r: Option<string>)
    ensures r.Some? <==> x != ""
    ensures r.Some? ==> r.value == x
  {
    if x == "" then None else Some(x)
  }
}

=== FILE: link_utils.dfy ===
/** URL segmentation of message text (lib/linkUtils.ts).

    The pattern `/(https?:\/\/[^\s]+)|(www\.[^\s]+)/gi` is modelled as a
    scanner over characters: a match starts at the leftmost position where the
    text begins, ignoring case, with `http://`, `https://` or `www.` followed by
    at least one non-space character, and runs to the end of that run of
    non-space characters. */
module LinkUtils {
  import opened Common

  /** One piece of `detectLinks`' output: plain text, or a link with the URL to open. */
  datatype Segment = Text(content: string) | Link(content: string, url: string)

  const HttpPrefix: string := "http://"
  const HttpsPrefix: string := "https://"
  const WwwPrefix: string := "www."

  /** ASCII lower-casing. Without the `u` flag the `i` flag canonicalises with
      upper-casing but refuses any non-ASCII character whose upper case is ASCII,
      so for the letters of the three prefixes only the ASCII pairs match. */
  function AsciiLower(c: char): char {
    if 'A' <= c <= 'Z' then (c as int + 32) as char else c
  }

  /** `s` begins with the lower-case pattern `p`, ignoring ASCII case. */
  predicate StartsWithIgnoringCase(s: string, p: string) {
    |p| <= |s| && forall k :: 0 <= k < |p| ==> AsciiLower(s[k]) == p[k]
  }

  /** `s` begins with `p` (ignoring case) and at least one non-space character follows. */
  predicate PrefixThenToken(s: string, p: string) {
    |p| < |s| && StartsWithIgnoringCase(s, p) && !IsSpace(s[|p|])
  }

  /** The URL pattern can start a match at position `i` of `t`. */
  predicate MatchesAt(t: string, i: nat) {
    i <= |t|
    && (PrefixThenToken(t[i..], HttpPrefix)
        || PrefixThenToken(t[i..], HttpsPrefix)
        || PrefixThenToken(t[i..], WwwPrefix))
  }

  /** What a link segment's content looks like: a match at its first character
      that contains no white space. */
  predicate IsUrlToken(c: string) {
    MatchesAt(c, 0) && forall j :: 0 <= j < |c| ==> !IsSpace(c[j])
  }

  /** `rest` (the input after some segment) is empty or starts with white space. */
  predicate EndsRun(rest: string) {
    rest == [] || IsSpace(rest[0])
  }

  /** No position of `c` can start a match in `c + rest`. */
  predicate NoMatchWithin(c: string, rest: string) {
    forall j :: 0 <= j < |c| ==> !MatchesAt(c + rest, j)
  }

  /** The concatenated contents of `segs`. */
  function Concat(segs: seq<Segment>): string {
    if segs == [] then [] else segs[0].content + Concat(segs[1..])
  }

  /** End of the run of non-space characters that starts at `i`: what `[^\s]+` consumes. */
  function RunEnd(t: string, i: nat): (e: nat)
    requires i <= |t|
    ensures i <= e <= |t|
    ensures forall k :: i <= k < e ==> !IsSpace(t[k])
    ensures e == |t| || IsSpace(t[e])
    decreases |t| - i
  {
    if i == |t| || IsSpace(t[i]) then i else RunEnd(t, i + 1)
  }

  /** Leftmost match position at or after `from`, as `exec` with `lastIndex = from` finds it. */
  function FindMatch(t: string, from: nat): (r: Option<nat>)
    requires from <= |t|
    ensures r.Some? ==> from <= r.value < |t| && MatchesAt(t, r.value)
    ensures forall k :: from <= k < (if r.Some? then r.value else |t|) ==> !MatchesAt(t, k)
    decreases |t| - from
  {
    if from == |t| then None
    else if MatchesAt(t, from) then Some(from)
    else FindMatch(t, from + 1)
  }

  /** The URL of a link: `https://` is prepended when the matched text starts with
      `www.`; that test is case-sensitive. */
  function UrlFor(content: string): (url: string)
    ensures url == content || url == HttpsPrefix + content
    ensures url != content <==> |content| >= |WwwPrefix| && content[..|WwwPrefix|] == WwwPrefix
  {
    if |WwwPrefix| <= |content| && content[..|WwwPrefix|] == WwwPrefix then HttpsPrefix + content
    else content
  }

  /** The text a match consumes reaches past the shortest prefix and is a URL token. */
  lemma MatchedTokenIsUrl(t: string, i: nat)
    requires MatchesAt(t, i)
    ensures i + 4 < RunEnd(t, i)
    ensures IsUrlToken(t[i..RunEnd(t, i)])
  {
  }

  /** The segments of `t[last..]`, scanning from `lastIndex = last`. */
  function Segments(t: string, last: nat): seq<Segment>
    requires last <= |t|
    decreases |t| - last
  {
    match FindMatch(t, last)
    case None =>
      if last < |t| then [Text(t[last..])] else []
    case Some(i) =>
      MatchedTokenIsUrl(t, i);
      var e := RunEnd(t, i);
      var fromLink := [Link(t[i..e], UrlFor(t[i..e]))] + Segments(t, e);
      if i > last then [Text(t[last..i])] + fromLink else fromLink
  }

  /** Segment `k` of `segs` is what a scan produces there: a non-empty text with
      no match starting inside it and a link after it, or a link that is a whole
      URL token followed by white space or the end. */
  ghost predicate SegmentOk(segs: seq<Segment>, k: nat)
    requires k < |segs|
  {
    match segs[k]
    case Text(c) =>
      c != [] && NoMatchWithin(c, Concat(segs[k + 1..])) && (k + 1 < |segs| ==> segs[k + 1].Link?)
    case Link(c, u) =>
      IsUrlToken(c) && EndsRun(Concat(segs[k + 1..])) && u == UrlFor(c)
  }

  ghost predicate AllSegmentsOk(segs: seq<Segment>) {
    forall k :: 0 <= k < |segs| ==> SegmentOk(segs, k)
  }

  lemma ConsSegmentOk(x: Segment, rest: seq<Segment>)
    requires AllSegmentsOk(rest) && SegmentOk([x] + rest, 0)
    ensures AllSegmentsOk([x] + rest)
  {
    var segs := [x] + rest;
    forall k | 1 <= k < |segs|
      ensures SegmentOk(segs, k)
    {
      assert segs[k] == rest[k - 1];
      assert segs[k + 1..] == rest[k..];
      assert SegmentOk(rest, k - 1);
    }
  }

  /** `detectLinks(text)`: the text cut into plain-text and link segments. */
  function DetectLinks(text: string): (segs: seq<Segment>)
    ensures |segs| > 0
    ensures Concat(segs) == text
    ensures text == [] ==> segs == [Text([])]
    ensures text != [] ==> forall k :: 0 <= k < |segs| && segs[k].Text? ==> segs[k].content != []
    ensures forall k :: 0 <= k < |segs| - 1 ==> !(segs[k].Text? && segs[k + 1].Text?)
    ensures forall k :: 0 <= k < |segs| && segs[k].Link? ==>
              IsUrlToken(segs[k].content) && EndsRun(Concat(segs[k + 1..]))
    ensures forall k :: 0 <= k < |segs| && segs[k].Link? ==>
              segs[k].url == UrlFor(segs[k].content)
    ensures forall k :: 0 <= k < |segs| && segs[k].Text? ==>
              NoMatchWithin(segs[k].content, Concat(segs[k + 1..]))
  {
    SegmentsProperties(text, 0);
    var segs := Segments(text, 0);
    if segs == [] then
      assert Concat([Text(text)]) == text + Concat([]);
      [Text(text)]
    else
      WellFormedSegments(segs);
      segs
  }

  /** The per-segment facts of `AllSegmentsOk`, one property at a time. */
  lemma WellFormedSegments(segs: seq<Segment>)
    requires AllSegmentsOk(segs)
    ensures forall k :: 0 <= k < |segs| && segs[k].Text? ==> segs[k].content != []
    ensures forall k :: 0 <= k < |segs| - 1 ==> !(segs[k].Text? && segs[k + 1].Text?)
    ensures forall k :: 0 <= k < |segs| && segs[k].Link? ==>
              IsUrlToken(segs[k].content) && EndsRun(Concat(segs[k + 1..]))
    ensures forall k :: 0 <= k < |segs| && segs[k].Link? ==>
              segs[k].url == UrlFor(segs[k].content)
    ensures forall k :: 0 <= k < |segs| && segs[k].Text? ==>
              NoMatchWithin(segs[k].content, Concat(segs[k + 1..]))
  {
    forall k | 0 <= k < |segs|
      ensures segs[k].Text? ==> segs[k].content != []
      ensures k < |segs| - 1 ==> !(segs[k].Text? && segs[k + 1].Text?)
      ensures segs[k].Link? ==> IsUrlToken(segs[k].content) && EndsRun(Concat(segs[k + 1..]))
      ensures segs[k].Link? ==> segs[k].url == UrlFor(segs[k].content)
      ensures segs[k].Text? ==> NoMatchWithin(segs[k].content, Concat(segs[k + 1..]))
    {
      assert SegmentOk(segs, k);
    }
  }

  /** `extractFirstUrl(text)`: the URL of the first match, or null. */
  function ExtractFirstUrl(text: string): (r: Option<string>)
    ensures r.None? <==> forall k :: 0 <= k < |DetectLinks(text)| ==> DetectLinks(text)[k].Text?
    ensures r.Some? ==> exists k :: 0 <= k < |DetectLinks(text)|
                          && DetectLinks(text)[k].Link?
                          && DetectLinks(text)[k].url == r.value
                          && forall j :: 0 <= j < k ==> DetectLinks(text)[j].Text?
  {
    match FindMatch(text, 0)
    case None =>
      NoMatchNoLink(text);
      None
    case Some(i) =>
      MatchedTokenIsUrl(text, i);
      var e := RunEnd(text, i);
      var link := Link(text[i..e], UrlFor(text[i..e]));
      var fromLink := [link] + Segments(text, e);
      var segs := Segments(text, 0);
      assert segs == if i > 0 then [Text(text[0..i])] + fromLink else fromLink;
      var k := if i > 0 then 1 else 0;
      assert segs[k] == link;
      assert DetectLinks(text) == segs;
      Some(UrlFor(text[i..e]))
  }

  /** Without a match from `last` on, the scan yields no link. */
  lemma NoMatchNoLink(t: string)
    requires FindMatch(t, 0).None?
    ensures DetectLinks(t) == [Text(t)]
  {
  }

  lemma {:induction false} ConcatAppend(a: seq<Segment>, b: seq<Segment>)
    ensures Concat(a + b) == Concat(a) + Concat(b)
    decreases |a|
  {
    if a != [] {
      assert (a + b)[0] == a[0];
      assert (a + b)[1..] == a[1..] + b;
      ConcatAppend(a[1..], b);
      calc {
        Concat(a + b);
        a[0].content + Concat(a[1..] + b);
        a[0].content + (Concat(a[1..]) + Concat(b));
        (a[0].content + Concat(a[1..])) + Concat(b);
      }
    } else {
      assert a + b == b;
    }
  }

  /** Whether a match starts somewhere depends only on the text from there on. */
  lemma MatchesAtSuffix(t: string, a: nat, j: nat)
    requires a + j <= |t|
    ensures MatchesAt(t[a..], j) == MatchesAt(t, a + j)
  {
  }

  /** Everything `DetectLinks` promises, for the scan that starts at `last`. */
  lemma {:induction false} SegmentsProperties(t: string, last: nat)
    requires last <= |t|
    ensures Concat(Segments(t, last)) == t[last..]
    ensures Segments(t, last) == [] <==> last == |t|
    ensures AllSegmentsOk(Segments(t, last))
    decreases |t| - last
  {
    match FindMatch(t, last)
    case None =>
      if last < |t| {
        FinalTextOk(t, last);
      }
    case Some(i) =>
      MatchedTokenIsUrl(t, i);
      var e := RunEnd(t, i);
      SegmentsProperties(t, e);
      var fromLink := [Link(t[i..e], UrlFor(t[i..e]))] + Segments(t, e);
      LinkSegmentOk(t, i, Segments(t, e));
      if i > last {
        TextBeforeLinkOk(t, last, i, fromLink);
      }
  }

  /** The text after the last match is one well-formed text segment. */
  lemma FinalTextOk(t: string, last: nat)
    requires last < |t|
    requires forall k :: last <= k < |t| ==> !MatchesAt(t, k)
    ensures Concat([Text(t[last..])]) == t[last..]
    ensures AllSegmentsOk([Text(t[last..])])
  {
    var c := t[last..];
    assert [Text(c)][1..] == [];
    assert Concat([Text(c)]) == c + Concat([]);
    forall j | 0 <= j < |c|
      ensures !MatchesAt(c + [], j)
    {
      assert c + [] == c;
      MatchesAtSuffix(t, last, j);
    }
    assert SegmentOk([Text(c)], 0);
  }

  /** A match at `i` followed by the well-formed segments of the text after it. */
  lemma LinkSegmentOk(t: string, i: nat, rest: seq<Segment>)
    requires MatchesAt(t, i)
    requires RunEnd(t, i) <= |t| && Concat(rest) == t[RunEnd(t, i)..]
    requires AllSegmentsOk(rest)
    ensures var e := RunEnd(t, i);
      && Concat([Link(t[i..e], UrlFor(t[i..e]))] + rest) == t[i..]
      && AllSegmentsOk([Link(t[i..e], UrlFor(t[i..e]))] + rest)
  {
    MatchedTokenIsUrl(t, i);
    var e := RunEnd(t, i);
    var link := Link(t[i..e], UrlFor(t[i..e]));
    var segs := [link] + rest;
    assert segs[1..] == rest;
    assert Concat(segs) == t[i..e] + t[e..];
    assert t[i..e] + t[e..] == t[i..];
    assert EndsRun(Concat(rest));
    assert SegmentOk(segs, 0);
    ConsSegmentOk(link, rest);
  }

  /** The text between `last` and the next match `i`, then the segments from the match on. */
  lemma TextBeforeLinkOk(t: string, last: nat, i: nat, fromLink: seq<Segment>)
    requires last < i <= |t|
    requires forall k :: last <= k < i ==> !MatchesAt(t, k)
    requires fromLink != [] && fromLink[0].Link?
    requires Concat(fromLink) == t[i..] && AllSegmentsOk(fromLink)
    ensures Concat([Text(t[last..i])] + fromLink) == t[last..]
    ensures AllSegmentsOk([Text(t[last..i])] + fromLink)
  {
    var c := t[last..i];
    var segs := [Text(c)] + fromLink;
    assert segs[1..] == fromLink;
    assert Concat(segs) == c + t[i..];
    assert c + t[i..] == t[last..];
    forall j | 0 <= j < |c|
      ensures !MatchesAt(c + Concat(fromLink), j)
    {
      MatchesAtSuffix(t, last, j);
    }
    assert SegmentOk(segs, 0);
    ConsSegmentOk(Text(c), fromLink);
  }
}

=== FILE: server.dfy ===
/** The real-time socket server (server/server.js) as a state machine.

    Each socket event handler is a function from the current state and the
    event's payload to the next state and the list of emits it performs. The
    database is an in-memory `Store`, Socket.IO rooms are sets of room names per
    socket, and an emit records its target and payload. */
module Server {
  import opened Common
  import opened ChatTypes
  import LinkUtils

  type SocketId = string

  /** One row of the chat-session participant table. */
  datatype Participant = Participant(sessionId: SessionId, userId: UserId)

  /** The unique key of a reaction row: one reaction per user per message. */
  datatype ReactionKey = ReactionKey(userId: UserId, messageId: MessageId)

  /** A stored reaction: its row id and its emoji. */
  datatype ReactionRow = ReactionRow(id: string, emoji: string)

  /** The part of the database the handlers read and write. */
  datatype Store = Store(
    users: map<UserId, User>,
    participants: seq<Participant>,
    messages: map<MessageId, Message>,
    reactions: map<ReactionKey, ReactionRow>,
    updatedAt: map<SessionId, int>)

  /** One value of the `onlineUsers` map, keyed by `userId`. */
  datatype PresenceEntry = PresenceEntry(socketId: SocketId, userId: UserId, name: Option<string>, email: string)

  /** A live socket: the user bound at authentication and the rooms it has joined. */
  datatype Connection = Connection(user: User, rooms: set<string>)

  /** `online` is `onlineUsers` in its iteration (insertion) order. */
  datatype State = State(store: Store, online: seq<PresenceEntry>, conns: map<SocketId, Connection>)

  /** Where an emit goes. A user's personal room and a session's room are both
      Socket.IO rooms named by the id. */
  datatype Target =
    | ToUser(userId: UserId)
    | ToSession(sessionId: SessionId)
    | ToSessionExcept(sessionId: SessionId, sender: SocketId)
    | ToAll
    | ToCaller

  datatype Payload =
    | OnlineUsers(entries: seq<PresenceEntry>)
    | ConnectRefused(reason: string)
    | AckOk
    | AckMessage(message: Message)
    | AckError(error: string)
    | NewMessage(message: Message)
    | MessageUpdated(message: Message)
    | UserTyping(userId: UserId, userName: string, isTyping: bool)
    | MessageDeleted(messageId: MessageId, sessionId: SessionId)
    | ReceiptsUpdated(kind: Receipt, sessionId: SessionId, messageIds: seq<MessageId>, userId: UserId)
    | ReactionUpdated(sessionId: SessionId, messageId: MessageId, userId: UserId, emoji: Option<string>)

  datatype Emit = Emit(target: Target, payload: Payload)

  datatype Step = Step(state: State, emits: seq<Emit>)

  // ---------------------------------------------------------------------------
  // Authentication

  /** What the client presents: the token ("" when missing) and the user id the
      signature and expiry check yields for it, if it passes. */
  datatype Handshake = Handshake(token: string, decoded: Option<UserId>)

  datatype AuthResult = Accepted(user: User) | Refused(reason: string)

  /** The connection middleware: a token, a valid signature, an existing user. */
  function Authenticate(users: map<UserId, User>, hs: Handshake): (r: AuthResult)
    ensures r.Accepted? <==> hs.token != "" && hs.decoded.Some? && hs.decoded.value in users
    ensures r.Accepted? ==> r.user == users[hs.decoded.value]
    ensures hs.token == "" ==> r == Refused("Authentication error: missing token")
    ensures hs.token != "" && hs.decoded.None? ==> r == Refused("Authentication error")
    ensures hs.token != "" && hs.decoded.Some? && hs.decoded.value !in users ==>
              r == Refused("Authentication error: user not found")
  {
    if hs.token == "" then Refused("Authentication error: missing token")
    else match hs.decoded
      case None => Refused("Authentication error")
      case Some(id) =>
        if id in users then Accepted(users[id]) else Refused("Authentication error: user not found")
  }

  // ---------------------------------------------------------------------------
  // Presence: a JavaScript Map from user id to entry

  predicate UniqueUsers(online: seq<PresenceEntry>) {
    forall i, j :: 0 <= i < j < |online| ==> online[i].userId != online[j].userId
  }

  predicate IsOnline(online: seq<PresenceEntry>, uid: UserId) {
    exists k :: 0 <= k < |online| && online[k].userId == uid
  }

  /** Position of the entry for `uid`, if any. */
  function PresenceIndex(online: seq<PresenceEntry>, uid: UserId): (r: Option<nat>)
    ensures r.Some? ==> r.value < |online| && online[r.value].userId == uid
    ensures r.Some? ==> forall k :: 0 <= k < r.value ==> online[k].userId != uid
    ensures r.None? ==> forall k :: 0 <= k < |online| ==> online[k].userId != uid
  {
    if online == [] then None
    else if online[0].userId == uid then Some(0)
    else match PresenceIndex(online[1..], uid)
      case None => None
      case Some(i) => Some(i + 1)
  }

  /** `onlineUsers.set(e.userId, e)`: an existing key keeps its position and
      takes the new value; a new key goes last. */
  function PresenceSet(online: seq<PresenceEntry>, e: PresenceEntry): (r: seq<PresenceEntry>)
    ensures e in r
    ensures forall x :: x in r && x.userId != e.userId ==> x in online
    ensures UniqueUsers(online) ==> forall x :: x in r && x.userId == e.userId ==> x == e
    ensures forall x :: x in online && x.userId != e.userId ==> x in r
    ensures UniqueUsers(online) ==> UniqueUsers(r)
    ensures IsOnline(online, e.userId) ==> |r| == |online|
    ensures IsOnline(online, e.userId) ==>
              forall k :: 0 <= k < |online| && online[k].userId != e.userId ==> r[k] == online[k]
    ensures !IsOnline(online, e.userId) ==> r == online + [e]
  {
    match PresenceIndex(online, e.userId)
    case Some(i) =>
      var r := online[i := e];
      assert r[i] == e;
      assert forall x :: x in online && x.userId != e.userId ==> x in r by {
        forall x | x in online && x.userId != e.userId
          ensures x in r
        {
          var k :| 0 <= k < |online| && online[k] == x;
          assert r[k] == x;
        }
      }
      r
    case None => online + [e]
  }

  /** `onlineUsers.delete(uid)`. */
  function PresenceDelete(online: seq<PresenceEntry>, uid: UserId): (r: seq<PresenceEntry>)
    ensures forall x :: x in r <==> x in online && x.userId != uid
    ensures !IsOnline(r, uid)
    ensures IsSubsequence(r, online)
    ensures UniqueUsers(online) ==> UniqueUsers(r)
    decreases |online|
  {
    if online == [] then []
    else
      var rest := PresenceDelete(online[1..], uid);
      if online[0].userId == uid then
        SubsequenceOfTail(rest, online);
        rest
      else
        var r := [online[0]] + rest;
        assert r[1..] == rest;
        assert UniqueUsers(online) ==> forall x :: x in rest ==> x.userId != online[0].userId;
        r
  }

  /** `Map.delete` keeps every other entry as often as it occurred. */
  lemma {:induction false} PresenceDeleteCount(online: seq<PresenceEntry>, uid: UserId)
    ensures forall x :: multiset(PresenceDelete(online, uid))[x] == if x.userId == uid then 0 else multiset(online)[x]
    decreases |online|
  {
    if online != [] {
      PresenceDeleteCount(online[1..], uid);
      FilterConsCount((x: PresenceEntry) => x.userId != uid, online, PresenceDelete(online[1..], uid));
    }
  }

  // ---------------------------------------------------------------------------
  // Membership and fan-out

  predicate IsMember(store: Store, sid: SessionId, uid: UserId) {
    Participant(sid, uid) in store.participants
  }

  /** The user ids of the session's participant rows, in table order. */
  function Members(parts: seq<Participant>, sid: SessionId): (r: seq<UserId>)
    ensures forall u :: u in r <==> Participant(sid, u) in parts
    ensures |r| <= |parts|
  {
    if parts == [] then []
    else (if parts[0].sessionId == sid then [parts[0].userId] else []) + Members(parts[1..], sid)
  }

  /** One emit of `p` to the personal room of each user of `users`. */
  function FanOut(users: seq<UserId>, p: Payload): (r: seq<Emit>)
    ensures |r| == |users|
    ensures forall k :: 0 <= k < |r| ==> r[k] == Emit(ToUser(users[k]), p)
  {
    seq(|users|, k requires 0 <= k < |users| => Emit(ToUser(users[k]), p))
  }

  /** Each member's personal room gets `p`, and nothing else is emitted. */
  ghost predicate ReachesExactlyMembers(emits: seq<Emit>, store: Store, sid: SessionId, p: Payload) {
    && (forall e :: e in emits ==> e.payload == p && e.target.ToUser? && IsMember(store, sid, e.target.userId))
    && (forall u :: IsMember(store, sid, u) ==> Emit(ToUser(u), p) in emits)
  }

  lemma FanOutToMembers(store: Store, sid: SessionId, p: Payload)
    ensures ReachesExactlyMembers(FanOut(Members(store.participants, sid), p), store, sid, p)
  {
  }

  function AckIf(withAck: bool, p: Payload): (r: seq<Emit>)
    ensures withAck ==> r == [Emit(ToCaller, p)]
    ensures !withAck ==> r == []
  {
    if withAck then [Emit(ToCaller, p)] else []
  }

  // ---------------------------------------------------------------------------
  // connection / disconnect

  function PresenceOf(u: User, sock: SocketId): PresenceEntry {
    PresenceEntry(sock, u.id, u.name, u.email)
  }

  /** A new socket: authenticate it, record it as the user's presence (replacing
      any earlier entry), join the user's personal room and broadcast the list. */
  function OnConnect(st: State, sock: SocketId, hs: Handshake): (r: Step)
    requires sock !in st.conns
    ensures Authenticate(st.store.users, hs).Refused? ==>
              r == Step(st, [Emit(ToCaller, ConnectRefused(Authenticate(st.store.users, hs).reason))])
    ensures Authenticate(st.store.users, hs).Accepted? ==>
              var u := Authenticate(st.store.users, hs).user;
              && r.state.store == st.store
              && r.state.conns == st.conns[sock := Connection(u, {u.id})]
              && PresenceOf(u, sock) in r.state.online
              && (forall x :: x in r.state.online && x.userId != u.id <==> x in st.online && x.userId != u.id)
              && r.emits == [Emit(ToAll, OnlineUsers(r.state.online))]
    ensures Authenticate(st.store.users, hs).Accepted? ==>
              r.state.online == PresenceSet(st.online, PresenceOf(Authenticate(st.store.users, hs).user, sock))
    ensures Authenticate(st.store.users, hs).Accepted? && UniqueUsers(st.online) ==>
              var u := Authenticate(st.store.users, hs).user;
              && UniqueUsers(r.state.online)
              && forall x :: x in r.state.online && x.userId == u.id ==> x == PresenceOf(u, sock)
  {
    match Authenticate(st.store.users, hs)
    case Refused(reason) => Step(st, [Emit(ToCaller, ConnectRefused(reason))])
    case Accepted(u) =>
      var online := PresenceSet(st.online, PresenceOf(u, sock));
      var st' := st.(online := online, conns := st.conns[sock := Connection(u, {u.id})]);
      Step(st', [Emit(ToAll, OnlineUsers(online))])
  }

  /** A socket closes: the user's presence entry goes, whichever socket it names,
      the socket leaves every room, and the list is broadcast. */
  function OnDisconnect(st: State, sock: SocketId): (r: Step)
    requires sock in st.conns
    ensures r.state.store == st.store
    ensures r.state.conns == st.conns - {sock}
    ensures !IsOnline(r.state.online, st.conns[sock].user.id)
    ensures forall x :: x in r.state.online <==> x in st.online && x.userId != st.conns[sock].user.id
    ensures r.emits == [Emit(ToAll, OnlineUsers(r.state.online))]
  {
    var online := PresenceDelete(st.online, st.conns[sock].user.id);
    Step(st.(online := online, conns := st.conns - {sock}), [Emit(ToAll, OnlineUsers(online))])
  }

  // ---------------------------------------------------------------------------
  // join-session / leave-session

  function WithRooms(st: State, sock: SocketId, rooms: set<string>): State
    requires sock in st.conns
  {
    st.(conns := st.conns[sock := st.conns[sock].(rooms := rooms)])
  }

  /** Join a session room, for participants only; the outcome goes to the ack. */
  function OnJoinSession(st: State, sock: SocketId, sid: SessionId, withAck: bool): (r: Step)
    requires sock in st.conns
    ensures var u := st.conns[sock].user.id;
      if sid != "" && IsMember(st.store, sid, u) then
        && r.state == WithRooms(st, sock, st.conns[sock].rooms + {sid})
        && r.emits == AckIf(withAck, AckOk)
      else
        && r.state == st
        && r.emits == AckIf(withAck, AckError(if sid == "" then "Missing session id" else "User not part of this session"))
  {
    var u := st.conns[sock].user.id;
    if sid == "" then Step(st, AckIf(withAck, AckError("Missing session id")))
    else if !IsMember(st.store, sid, u) then Step(st, AckIf(withAck, AckError("User not part of this session")))
    else Step(WithRooms(st, sock, st.conns[sock].rooms + {sid}), AckIf(withAck, AckOk))
  }

  /** Leave a room; nothing is checked and nothing is emitted. */
  function OnLeaveSession(st: State, sock: SocketId, sid: SessionId): (r: Step)
    requires sock in st.conns
    ensures r.emits == []
    ensures sid == "" ==> r.state == st
    ensures sid != "" ==> r.state == WithRooms(st, sock, st.conns[sock].rooms - {sid})
  {
    if sid == "" then Step(st, []) else Step(WithRooms(st, sock, st.conns[sock].rooms - {sid}), [])
  }

  // ---------------------------------------------------------------------------
  // send-message and the link-preview step

  /** The fields of a `send-message` payload; "" and None stand for absent. */
  datatype SendRequest = SendRequest(
    sessionId: SessionId, content: string, kind: string,
    attachmentUrl: string, fileName: string, fileSize: Option<int>)

  /** The background preview task: which message, which URL, whom to tell. */
  datatype PreviewJob = PreviewJob(messageId: MessageId, url: string, recipients: seq<UserId>)

  datatype SendResult = SendResult(step: Step, preview: Option<PreviewJob>)

  /** Why a send is refused, checked in the handler's order; None when it is accepted. */
  function SendError(st: State, sock: SocketId, req: SendRequest): (r: Option<string>)
    requires sock in st.conns
    ensures r.None? <==>
              && req.sessionId != ""
              && (Trim(req.content) != "" || req.attachmentUrl != "")
              && IsMember(st.store, req.sessionId, st.conns[sock].user.id)
    ensures req.sessionId == "" ==> r == Some("Session required")
    ensures req.sessionId != "" && Trim(req.content) == "" && req.attachmentUrl == "" ==>
              r == Some("Content or attachment required")
    ensures req.sessionId != "" && (Trim(req.content) != "" || req.attachmentUrl != "")
            && !IsMember(st.store, req.sessionId, st.conns[sock].user.id) ==>
              r == Some("User not part of this session")
  {
    if req.sessionId == "" then Some("Session required")
    else if Trim(req.content) == "" && req.attachmentUrl == "" then Some("Content or attachment required")
    else if !IsMember(st.store, req.sessionId, st.conns[sock].user.id) then Some("User not part of this session")
    else None
  }

  /** The row `prisma.message.create` stores. */
  function NewMessageRow(req: SendRequest, sender: UserId, id: MessageId): (m: Message)
    ensures m.id == id && m.sessionId == req.sessionId && m.senderId == sender
    ensures m.content == Trim(req.content)
    ensures m.kind == if req.kind == "" then "TEXT" else req.kind
    ensures m.attachmentUrl == StringOrNull(req.attachmentUrl)
    ensures m.fileName == StringOrNull(req.fileName)
    ensures m.fileSize.Some? <==> req.fileSize.Some? && req.fileSize.value != 0
    ensures m.fileSize.Some? ==> m.fileSize == req.fileSize
    ensures m.linkPreview.None? && m.deliveredTo == [] && m.readBy == [] && m.reactions == []
  {
    Message(
      id, req.sessionId, sender, Trim(req.content),
      if req.kind == "" then "TEXT" else req.kind,
      StringOrNull(req.attachmentUrl), StringOrNull(req.fileName),
      if req.fileSize.Some? && req.fileSize.value != 0 then req.fileSize else None,
      None, [], [], [])
  }

  /** send-message: validate, check membership, store the message, touch the
      session, emit it to every participant's personal room, ack it, and hand
      back the preview task when the content holds a URL. */
  function OnSendMessage(st: State, sock: SocketId, req: SendRequest, withAck: bool, newId: MessageId, now: int): (r: SendResult)
    requires sock in st.conns && newId !in st.store.messages
    ensures SendError(st, sock, req).Some? ==>
              && r.step == Step(st, AckIf(withAck, AckError(SendError(st, sock, req).value)))
              && r.preview.None?
    ensures SendError(st, sock, req).None? ==>
              |r.step.emits| >= |AckIf(withAck, AckError(""))|
    ensures SendError(st, sock, req).None? ==>
              var m := NewMessageRow(req, st.conns[sock].user.id, newId);
              var fanout := r.step.emits[..|r.step.emits| - |AckIf(withAck, AckMessage(m))|];
              && r.step.state == st.(store := st.store.(
                   messages := st.store.messages[newId := m],
                   updatedAt := st.store.updatedAt[req.sessionId := now]))
              && ReachesExactlyMembers(fanout, st.store, req.sessionId, NewMessage(m))
              && r.step.emits == fanout + AckIf(withAck, AckMessage(m))
              && (r.preview.Some? <==> LinkUtils.ExtractFirstUrl(m.content).Some?)
              && (r.preview.Some? ==>
                    && r.preview.value.messageId == newId
                    && r.preview.value.url == LinkUtils.ExtractFirstUrl(m.content).value
                    && r.preview.value.recipients == Members(st.store.participants, req.sessionId))
  {
    match SendError(st, sock, req)
    case Some(err) => SendResult(Step(st, AckIf(withAck, AckError(err))), None)
    case None =>
      var m := NewMessageRow(req, st.conns[sock].user.id, newId);
      var store := st.store.(
        messages := st.store.messages[newId := m],
        updatedAt := st.store.updatedAt[req.sessionId := now]);
      var members := Members(st.store.participants, req.sessionId);
      var fanout := FanOut(members, NewMessage(m));
      FanOutToMembers(st.store, req.sessionId, NewMessage(m));
      var emits := fanout + AckIf(withAck, AckMessage(m));
      assert emits[..|emits| - |AckIf(withAck, AckMessage(m))|] == fanout;
      var preview := match LinkUtils.ExtractFirstUrl(m.content)
        case None => None
        case Some(url) => Some(PreviewJob(newId, url, members));
      SendResult(Step(st.(store := store), emits), preview)
  }

  /** The preview task finishing. `fetched` is the preview service's answer, None
      when the request failed; only a success writes the message and re-emits it. */
  function OnPreviewFetched(st: State, job: PreviewJob, fetched: Option<LinkPreview>): (r: Step)
    ensures fetched.None? || job.messageId !in st.store.messages ==> r == Step(st, [])
    ensures fetched.Some? && job.messageId in st.store.messages ==>
              var m := st.store.messages[job.messageId].(linkPreview := fetched);
              && r.state == st.(store := st.store.(messages := st.store.messages[job.messageId := m]))
              && |r.emits| == |job.recipients|
              && forall k :: 0 <= k < |r.emits| ==> r.emits[k] == Emit(ToUser(job.recipients[k]), MessageUpdated(m))
  {
    if fetched.None? || job.messageId !in st.store.messages then Step(st, [])
    else
      var m := st.store.messages[job.messageId].(linkPreview := fetched);
      Step(st.(store := st.store.(messages := st.store.messages[job.messageId := m])),
           FanOut(job.recipients, MessageUpdated(m)))
  }

  // ---------------------------------------------------------------------------
  // typing and message-deleted

  /** `user.name || user.email`. */
  function DisplayName(u: User): string {
    if u.name.Some? && u.name.value != "" then u.name.value else u.email
  }

  /** typing: a participant's indicator goes to the session room, sender excluded. */
  function OnTyping(st: State, sock: SocketId, sid: SessionId, isTyping: JsValue): (r: Step)
    requires sock in st.conns
    ensures r.state == st
    ensures var u := st.conns[sock].user;
      if sid != "" && IsMember(st.store, sid, u.id) then
        r.emits == [Emit(ToSessionExcept(sid, sock), UserTyping(u.id, DisplayName(u), Truthy(isTyping)))]
      else r.emits == []
  {
    var u := st.conns[sock].user;
    if sid == "" || !IsMember(st.store, sid, u.id) then Step(st, [])
    else Step(st, [Emit(ToSessionExcept(sid, sock), UserTyping(u.id, DisplayName(u), Truthy(isTyping)))])
  }

  /** message-deleted: a relay to every participant. Nothing is deleted here and
      neither the sender's ownership nor their membership is checked. */
  function OnMessageDeleted(st: State, sock: SocketId, sid: SessionId, mid: MessageId): (r: Step)
    requires sock in st.conns
    ensures r.state == st
    ensures sid == "" || mid == "" ==> r.emits == []
    ensures sid != "" && mid != "" ==> ReachesExactlyMembers(r.emits, st.store, sid, MessageDeleted(mid, sid))
  {
    if sid == "" || mid == "" then Step(st, [])
    else
      FanOutToMembers(st.store, sid, MessageDeleted(mid, sid));
      Step(st, FanOut(Members(st.store.participants, sid), MessageDeleted(mid, sid)))
  }

  // ---------------------------------------------------------------------------
  // mark-delivered / mark-read

  /** The requested ids of stored messages whose list of `kind` lacks `user`. */
  function Eligible(msgs: map<MessageId, Message>, ids: seq<MessageId>, kind: Receipt, user: UserId): (r: seq<MessageId>)
    ensures forall id :: id in r <==> id in ids && id in msgs && user !in Receipts(msgs[id], kind)
    ensures IsSubsequence(r, ids)
    decreases |ids|
  {
    if ids == [] then []
    else
      var rest := Eligible(msgs, ids[1..], kind, user);
      if ids[0] in msgs && user !in Receipts(msgs[ids[0]], kind) then
        assert ([ids[0]] + rest)[1..] == rest;
        [ids[0]] + rest
      else
        SubsequenceOfTail(rest, ids);
        rest
  }

  /** The changed subset: each message at most once, in first-request order. */
  function ToMark(msgs: map<MessageId, Message>, ids: seq<MessageId>, kind: Receipt, user: UserId): (r: seq<MessageId>)
    ensures NoDup(r)
    ensures forall id :: id in r <==> id in ids && id in msgs && user !in Receipts(msgs[id], kind)
    ensures InFirstOccurrenceOrder(r, Eligible(msgs, ids, kind, user))
  {
    Dedupe(Eligible(msgs, ids, kind, user))
  }

  /** Append `user` to the list of `kind` of exactly the messages in `chosen`. */
  function MarkAll(msgs: map<MessageId, Message>, chosen: seq<MessageId>, kind: Receipt, user: UserId): (r: map<MessageId, Message>)
    ensures r.Keys == msgs.Keys
    ensures forall id :: id in msgs && id in chosen ==> r[id] == AddReceipt(msgs[id], kind, user)
    ensures forall id :: id in msgs && id !in chosen ==> r[id] == msgs[id]
  {
    map id | id in msgs :: if id in chosen then AddReceipt(msgs[id], kind, user) else msgs[id]
  }

  /** mark-delivered / mark-read: add the caller to the list of each listed
      message that lacks them, and tell the session room which ones changed. */
  function OnMark(st: State, sock: SocketId, kind: Receipt, sid: SessionId, ids: Option<seq<MessageId>>): (r: Step)
    requires sock in st.conns
    ensures sid == "" || ids.None? || ids.value == [] ==> r == Step(st, [])
    ensures sid != "" && ids.Some? && ids.value != [] ==>
              var u := st.conns[sock].user.id;
              var msgs := st.store.messages;
              var changed := ToMark(msgs, ids.value, kind, u);
              && r.state == st.(store := st.store.(messages := r.state.store.messages))
              && r.state.store.messages.Keys == msgs.Keys
              && (forall id :: id in msgs ==>
                    if id in ids.value && u !in Receipts(msgs[id], kind)
                    then r.state.store.messages[id] == WithReceipts(msgs[id], kind, Receipts(msgs[id], kind) + [u])
                    else r.state.store.messages[id] == msgs[id])
              && r.emits == if changed == [] then [] else [Emit(ToSession(sid), ReceiptsUpdated(kind, sid, changed, u))]
  {
    if sid == "" || ids.None? || ids.value == [] then Step(st, [])
    else
      var u := st.conns[sock].user.id;
      var changed := ToMark(st.store.messages, ids.value, kind, u);
      if changed == [] then Step(st, [])
      else
        var msgs := MarkAll(st.store.messages, changed, kind, u);
        Step(st.(store := st.store.(messages := msgs)),
             [Emit(ToSession(sid), ReceiptsUpdated(kind, sid, changed, u))])
  }

  // ---------------------------------------------------------------------------
  // toggle-reaction

  /** The reaction table after `user` toggles `emoji` on `mid`: create, delete
      when it is the same emoji, or update the existing row in place. */
  function ToggleRow(reactions: map<ReactionKey, ReactionRow>, key: ReactionKey, emoji: string, newRowId: string): (r: map<ReactionKey, ReactionRow>)
    ensures key !in reactions ==> r == reactions[key := ReactionRow(newRowId, emoji)]
    ensures key in reactions && reactions[key].emoji == emoji ==> key !in r
    ensures key in reactions && reactions[key].emoji != emoji ==> key in r && r[key] == reactions[key].(emoji := emoji)
    ensures forall k :: k != key ==> (k in r <==> k in reactions) && (k in r ==> r[k] == reactions[k])
  {
    if key !in reactions then reactions[key := ReactionRow(newRowId, emoji)]
    else if reactions[key].emoji == emoji then reactions - {key}
    else reactions[key := reactions[key].(emoji := emoji)]
  }

  /** The emoji a reaction key carries, or None. */
  function EmojiOf(reactions: map<ReactionKey, ReactionRow>, key: ReactionKey): Option<string> {
    if key in reactions then Some(reactions[key].emoji) else None
  }

  /** toggle-reaction: update the caller's reaction and tell every participant
      the emoji now recorded (null when it was toggled off). */
  function OnToggleReaction(st: State, sock: SocketId, sid: SessionId, mid: MessageId, emoji: string, newRowId: string): (r: Step)
    requires sock in st.conns
    ensures sid == "" || mid == "" || emoji == "" ==> r == Step(st, [])
    ensures sid != "" && mid != "" && emoji != "" ==>
              var key := ReactionKey(st.conns[sock].user.id, mid);
              var after := r.state.store.reactions;
              && r.state == st.(store := st.store.(reactions := after))
              && (EmojiOf(after, key) == if EmojiOf(st.store.reactions, key) == Some(emoji) then None else Some(emoji))
              && (key in after && key in st.store.reactions ==> after[key].id == st.store.reactions[key].id)
              && (forall k :: k != key ==> EmojiOf(after, k) == EmojiOf(st.store.reactions, k))
              && ReachesExactlyMembers(r.emits, st.store, sid,
                   ReactionUpdated(sid, mid, st.conns[sock].user.id, EmojiOf(after, key)))
  {
    if sid == "" || mid == "" || emoji == "" then Step(st, [])
    else
      var u := st.conns[sock].user.id;
      var key := ReactionKey(u, mid);
      var after := ToggleRow(st.store.reactions, key, emoji, newRowId);
      var p := ReactionUpdated(sid, mid, u, EmojiOf(after, key));
      FanOutToMembers(st.store, sid, p);
      Step(st.(store := st.store.(reactions := after)), FanOut(Members(st.store.participants, sid), p))
  }

  // ---------------------------------------------------------------------------
  // The event loop

  /** Everything that can happen to the server: the socket events, plus the
      background preview task finishing. Ids the database generates and the
      clock reading are carried by the event that needs them. */
  datatype Event =
    | Connect(handshake: Handshake)
    | JoinSession(sessionId: SessionId, withAck: bool)
    | LeaveSession(sessionId: SessionId)
    | SendMessage(request: SendRequest, withAck: bool, newId: MessageId, now: int)
    | PreviewFetched(job: PreviewJob, fetched: Option<LinkPreview>)
    | Typing(sessionId: SessionId, isTyping: JsValue)
    | DeleteNotice(sessionId: SessionId, messageId: MessageId)
    | Mark(kind: Receipt, sessionId: SessionId, messageIds: Option<seq<MessageId>>)
    | ToggleReaction(sessionId: SessionId, messageId: MessageId, emoji: string, newRowId: string)
    | Disconnect

  /** What the transport and the database guarantee about an event: a new socket
      id is unused, every other socket event comes from a connected socket, and a
      freshly created message id is unused. */
  predicate CanHappen(st: State, sock: SocketId, ev: Event) {
    match ev
    case Connect(_) => sock !in st.conns
    case PreviewFetched(_, _) => true
    case SendMessage(_, _, newId, _) => sock in st.conns && newId !in st.store.messages
    case _ => sock in st.conns
  }

  /** One step of the server. */
  function Handle(st: State, sock: SocketId, ev: Event): Step
    requires CanHappen(st, sock, ev)
  {
    match ev
    case Connect(hs) => OnConnect(st, sock, hs)
    case JoinSession(sid, withAck) => OnJoinSession(st, sock, sid, withAck)
    case LeaveSession(sid) => OnLeaveSession(st, sock, sid)
    case SendMessage(req, withAck, newId, now) => OnSendMessage(st, sock, req, withAck, newId, now).step
    case PreviewFetched(job, fetched) => OnPreviewFetched(st, job, fetched)
    case Typing(sid, isTyping) => OnTyping(st, sock, sid, isTyping)
    case DeleteNotice(sid, mid) => OnMessageDeleted(st, sock, sid, mid)
    case Mark(kind, sid, ids) => OnMark(st, sock, kind, sid, ids)
    case ToggleReaction(sid, mid, emoji, newRowId) => OnToggleReaction(st, sock, sid, mid, emoji, newRowId)
    case Disconnect => OnDisconnect(st, sock)
  }
}

=== FILE: server_properties.dfy ===
/** Properties of the socket server that span several handlers or several calls. */
module ServerProperties {
  import opened Common
  import opened ChatTypes
  import opened Server

  /** The state invariant every event preserves:
      - `onlineUsers` has one entry per user;
      - every presence entry names a live socket of that same user;
      - every stored message is filed under its own id, and its delivered and
        read lists hold no user twice. */
  ghost predicate Valid(st: State) {
    && UniqueUsers(st.online)
    && (forall x :: x in st.online ==> x.socketId in st.conns && st.conns[x.socketId].user.id == x.userId)
    && (forall id :: id in st.store.messages ==>
          && st.store.messages[id].id == id
          && NoDup(st.store.messages[id].deliveredTo)
          && NoDup(st.store.messages[id].readBy))
  }

  /** The server starts with no sockets and nobody online. */
  lemma InitialValid(store: Store)
    requires forall id :: id in store.messages ==>
               store.messages[id].id == id && NoDup(store.messages[id].deliveredTo) && NoDup(store.messages[id].readBy)
    ensures Valid(State(store, [], map[]))
  {
  }

  lemma {:induction false} HandlePreservesValid(st: State, sock: SocketId, ev: Event)
    requires Valid(st) && CanHappen(st, sock, ev)
    ensures Valid(Handle(st, sock, ev).state)
  {
    var r := Handle(st, sock, ev);
    match ev
    case Connect(hs) =>
      ConnectPreservesValid(st, sock, hs);
    case Disconnect =>
      var u := st.conns[sock].user.id;
      forall x | x in r.state.online
        ensures x.socketId in r.state.conns && r.state.conns[x.socketId].user.id == x.userId
      {
        assert x in st.online && x.userId != u;
      }
    case Mark(kind, sid, ids) =>
      MarkPreservesValid(st, sock, kind, sid, ids);
    case SendMessage(req, withAck, newId, now) =>
      var res := OnSendMessage(st, sock, req, withAck, newId, now);
      if SendError(st, sock, req).None? {
        var m := NewMessageRow(req, st.conns[sock].user.id, newId);
        assert r.state.store.messages == st.store.messages[newId := m];
      }
    case JoinSession(sid, withAck) =>
      assert r.state.conns.Keys == st.conns.Keys;
    case LeaveSession(sid) =>
      assert r.state.conns.Keys == st.conns.Keys;
    case PreviewFetched(job, fetched) =>
    case Typing(sid, isTyping) =>
    case DeleteNotice(sid, mid) =>
    case ToggleReaction(sid, mid, emoji, newRowId) =>
  }

  lemma ConnectPreservesValid(st: State, sock: SocketId, hs: Handshake)
    requires Valid(st) && sock !in st.conns
    ensures Valid(OnConnect(st, sock, hs).state)
  {
  }

  lemma MarkPreservesValid(st: State, sock: SocketId, kind: Receipt, sid: SessionId, ids: Option<seq<MessageId>>)
    requires Valid(st) && sock in st.conns
    ensures Valid(OnMark(st, sock, kind, sid, ids).state)
  {
  }

  /** Delivered and read lists only grow: no event removes a message or an
      entry of either list, or reorders them. */
  lemma {:induction false} ReceiptsOnlyGrow(st: State, sock: SocketId, ev: Event, id: MessageId, kind: Receipt)
    requires CanHappen(st, sock, ev) && id in st.store.messages
    ensures id in Handle(st, sock, ev).state.store.messages
    ensures Receipts(st.store.messages[id], kind) <= Receipts(Handle(st, sock, ev).state.store.messages[id], kind)
  {
  }

  /** A repeated mark-delivered or mark-read call writes nothing and emits nothing. */
  lemma MarkIdempotent(st: State, sock: SocketId, kind: Receipt, sid: SessionId, ids: Option<seq<MessageId>>)
    requires sock in st.conns
    ensures var first := OnMark(st, sock, kind, sid, ids);
            OnMark(first.state, sock, kind, sid, ids) == Step(first.state, [])
  {
    var first := OnMark(st, sock, kind, sid, ids);
    if sid != "" && ids.Some? && ids.value != [] {
      var u := st.conns[sock].user.id;
      var msgs := first.state.store.messages;
      NothingEligibleMeansEmpty(msgs, ids.value, kind, u);
    }
  }

  lemma {:induction false} NothingEligibleMeansEmpty(msgs: map<MessageId, Message>, ids: seq<MessageId>, kind: Receipt, user: UserId)
    requires forall i :: 0 <= i < |ids| && ids[i] in msgs ==> user in Receipts(msgs[ids[i]], kind)
    ensures Eligible(msgs, ids, kind, user) == []
    decreases |ids|
  {
    if ids != [] {
      assert forall i :: 0 <= i < |ids[1..]| ==> ids[1..][i] == ids[i + 1];
      NothingEligibleMeansEmpty(msgs, ids[1..], kind, user);
    }
  }

  /** Toggling the same emoji twice returns the caller's reaction to absent,
      unless it was that emoji to begin with, in which case it is back. */
  lemma ToggleTwice(st: State, sock: SocketId, sid: SessionId, mid: MessageId, emoji: string, id1: string, id2: string)
    requires sock in st.conns && sid != "" && mid != "" && emoji != ""
    ensures var key := ReactionKey(st.conns[sock].user.id, mid);
            var first := OnToggleReaction(st, sock, sid, mid, emoji, id1);
            var second := OnToggleReaction(first.state, sock, sid, mid, emoji, id2);
            EmojiOf(second.state.store.reactions, key)
              == if EmojiOf(st.store.reactions, key) == Some(emoji) then Some(emoji) else None
  {
  }

  /** A user's second connection replaces the presence entry of the first: the
      list still holds exactly one entry for the user, naming the newer socket. */
  lemma SecondConnectionReplacesFirst(st: State, s1: SocketId, s2: SocketId, hs: Handshake)
    requires Valid(st) && s1 !in st.conns && s2 !in st.conns && s1 != s2
    requires Authenticate(st.store.users, hs).Accepted?
    ensures var mid := OnConnect(st, s1, hs).state;
            var last := OnConnect(mid, s2, hs).state;
            var u := Authenticate(st.store.users, hs).user;
            && s1 in last.conns && s2 in last.conns
            && (forall x :: x in last.online && x.userId == u.id ==> x.socketId == s2)
  {
  }

  /** Disconnecting one socket of a user takes the user offline even when
      another socket of theirs stays connected. */
  lemma DisconnectDropsUserWithLiveSocket(st: State, s1: SocketId, s2: SocketId)
    requires s1 in st.conns && s2 in st.conns && s1 != s2
    requires st.conns[s1].user.id == st.conns[s2].user.id
    ensures var after := OnDisconnect(st, s1).state;
            s2 in after.conns && !IsOnline(after.online, st.conns[s2].user.id)
  {
  }
}

=== FILE: sessions_route.dfy ===
/** The session list endpoint: GET lists the caller's sessions, newest activity
    first, with per-caller unread count and flags; POST finds the session with
    exactly the requested participants or creates it. The database is the
    sequence of session rows in table order. */
module SessionsRoute {
  import opened Common
  import opened ChatTypes
  import ChatClient

  /** A user's membership row: per-user archive and mute flags. */
  datatype ParticipantRow = ParticipantRow(userId: UserId, isArchived: bool, isMuted: bool)

  datatype SessionRow = SessionRow(
    id: SessionId,
    name: Option<string>,
    participants: seq<ParticipantRow>,
    messages: seq<Message>,
    updatedAt: int)

  function UserIds(ps: seq<ParticipantRow>): (r: seq<UserId>)
    ensures |r| == |ps| && forall i :: 0 <= i < |ps| ==> r[i] == ps[i].userId
  {
    seq(|ps|, i requires 0 <= i < |ps| => ps[i].userId)
  }

  predicate IsParticipant(s: SessionRow, user: UserId) {
    exists i :: 0 <= i < |s.participants| && s.participants[i].userId == user
  }

  // ---------------------------------------------------------------------------
  // POST

  /** `[...new Set([caller, ...participantIds])]`: the caller first, then every
      requested id, each once, in first-occurrence order. */
  function AllParticipants(caller: UserId, ids: seq<UserId>): (r: seq<UserId>)
    ensures r != [] && r[0] == caller
    ensures NoDup(r)
    ensures forall u :: u in r <==> u == caller || u in ids
    ensures IsSubsequence(r, [caller] + ids)
    ensures InFirstOccurrenceOrder(r, [caller] + ids)
  {
    Dedupe([caller] + ids)
  }

  /** The candidate filter: every participant of `s` is in `all`. */
  predicate IsCandidate(s: SessionRow, all: seq<UserId>) {
    forall i :: 0 <= i < |s.participants| ==> s.participants[i].userId in all
  }

  /** The exact-match test: a candidate with as many participant rows as `all` has ids. */
  predicate IsExactMatch(s: SessionRow, all: seq<UserId>) {
    IsCandidate(s, all) && |s.participants| == |all|
  }

  /** The candidate sessions, in table order. */
  function Candidates(db: seq<SessionRow>, all: seq<UserId>): (r: seq<SessionRow>)
    ensures forall s :: s in r <==> s in db && IsCandidate(s, all)
    ensures IsSubsequence(r, db)
    ensures forall s :: multiset(r)[s] == if IsCandidate(s, all) then multiset(db)[s] else 0
    decreases |db|
  {
    if db == [] then []
    else
      var rest := Candidates(db[1..], all);
      FilterConsCount((s: SessionRow) => IsCandidate(s, all), db, rest);
      if IsCandidate(db[0], all) then
        assert ([db[0]] + rest)[1..] == rest;
        [db[0]] + rest
      else
        SubsequenceOfTail(rest, db);
        rest
  }

  /** `candidates.find(isExactMatch)`. */
  function FirstExactMatch(candidates: seq<SessionRow>, all: seq<UserId>): (r: Option<SessionRow>)
    ensures r.None? <==> forall i :: 0 <= i < |candidates| ==> !IsExactMatch(candidates[i], all)
    ensures r.Some? ==> exists k :: 0 <= k < |candidates| && candidates[k] == r.value && IsExactMatch(r.value, all)
                          && forall i :: 0 <= i < k ==> !IsExactMatch(candidates[i], all)
    decreases |candidates|
  {
    if candidates == [] then None
    else if IsExactMatch(candidates[0], all) then Some(candidates[0])
    else
      var r := FirstExactMatch(candidates[1..], all);
      if r.Some? then
        var k :| 0 <= k < |candidates[1..]| && candidates[1..][k] == r.value && IsExactMatch(r.value, all)
                 && forall i :: 0 <= i < k ==> !IsExactMatch(candidates[1..][i], all);
        assert candidates[k + 1] == r.value;
        assert forall i :: 1 <= i < k + 1 ==> candidates[i] == candidates[1..][i - 1];
        r
      else
        assert forall i :: 1 <= i < |candidates| ==> candidates[i] == candidates[1..][i - 1];
        r
  }

  /** The answers of POST. `Existing` is 200 with the matched session,
      `Created` 200 with the new one. */
  datatype PostResponse =
    | PostUnauthorized
    | ParticipantsRequired
    | Existing(session: SessionRow)
    | NoLongerExists
    | Created(session: SessionRow)

  function PostStatus(r: PostResponse): int {
    match r
    case PostUnauthorized => 401
    case ParticipantsRequired => 400
    case Existing(_) => 200
    case NoLongerExists => 404
    case Created(_) => 200
  }

  datatype PostResult = PostResult(response: PostResponse, db: seq<SessionRow>)

  /** The row POST creates: one participant row per id, flags off, no messages. */
  function NewSessionRow(id: SessionId, name: Option<string>, all: seq<UserId>, now: int): (r: SessionRow)
    ensures UserIds(r.participants) == all
    ensures forall i :: 0 <= i < |r.participants| ==> !r.participants[i].isArchived && !r.participants[i].isMuted
  {
    SessionRow(id, name, seq(|all|, i requires 0 <= i < |all| => ParticipantRow(all[i], false, false)), [], now)
  }

  /** POST. `caller` is the signed-in user (None without a valid session
      cookie); `participantIds` is None when the field is missing or not an
      array; `freshId` and `now` are what the database assigns to a new row;
      `stillThere` is whether the matched session survives until the re-read. */
  function Post(db: seq<SessionRow>, caller: Option<UserId>, participantIds: Option<seq<UserId>>,
                name: Option<string>, freshId: SessionId, now: int, stillThere: bool): (r: PostResult)
    requires forall i :: 0 <= i < |db| ==> db[i].id != freshId
    ensures caller.None? ==> r == PostResult(PostUnauthorized, db)
    ensures caller.Some? && participantIds.None? ==> r == PostResult(ParticipantsRequired, db)
    ensures r.response.Existing? || r.response.NoLongerExists? || PostStatus(r.response) >= 400 ==> r.db == db
    ensures r.response.Existing? ==> r.response.session in db && IsExactMatch(r.response.session, AllParticipants(caller.value, participantIds.value))
    ensures r.response.NoLongerExists? ==> !stillThere
    ensures r.response.Created? ==>
              && caller.Some? && participantIds.Some?
              && (forall s :: s in db ==> !IsExactMatch(s, AllParticipants(caller.value, participantIds.value)))
              && r.db == db + [r.response.session]
              && r.response.session.id == freshId
              && UserIds(r.response.session.participants) == AllParticipants(caller.value, participantIds.value)
    ensures caller.Some? && participantIds.Some? ==> r.response.Existing? || r.response.NoLongerExists? || r.response.Created?
    ensures caller.Some? && participantIds.Some? ==>
              var all := AllParticipants(caller.value, participantIds.value);
              var found := FirstExactMatch(Candidates(db, all), all);
              && (r.response.Created? <==> found.None?)
              && (r.response.Existing? <==> found.Some? && stillThere)
              && (r.response.NoLongerExists? <==> found.Some? && !stillThere)
              && (r.response.Existing? ==> r.response.session == found.value)
  {
    if caller.None? then PostResult(PostUnauthorized, db)
    else if participantIds.None? then PostResult(ParticipantsRequired, db)
    else
      var all := AllParticipants(caller.value, participantIds.value);
      var candidates := Candidates(db, all);
      match FirstExactMatch(candidates, all)
      case Some(s) =>
        if stillThere then PostResult(Existing(s), db) else PostResult(NoLongerExists, db)
      case None =>
        assert forall s :: s in db && IsExactMatch(s, all) ==> s in candidates;
        var row := NewSessionRow(freshId, name, all, now);
        PostResult(Created(row), db + [row])
  }

  /** Every session in a table built by POST has each participant once. */
  ghost predicate ParticipantsUnique(db: seq<SessionRow>) {
    forall s :: s in db ==> NoDup(UserIds(s.participants))
  }

  lemma PostKeepsParticipantsUnique(db: seq<SessionRow>, caller: Option<UserId>, participantIds: Option<seq<UserId>>,
                                    name: Option<string>, freshId: SessionId, now: int, stillThere: bool)
    requires forall i :: 0 <= i < |db| ==> db[i].id != freshId
    requires ParticipantsUnique(db)
    ensures ParticipantsUnique(Post(db, caller, participantIds, name, freshId, now, stillThere).db)
  {
  }

  /** With each participant listed once, the exact-match test says that the
      session's participants are exactly the requested set. */
  lemma ExactMatchIsSameSet(s: SessionRow, all: seq<UserId>)
    requires NoDup(UserIds(s.participants)) && NoDup(all)
    ensures IsExactMatch(s, all) <==> (set u | u in UserIds(s.participants)) == (set u | u in all)
  {
    var ps := UserIds(s.participants);
    var a := set u | u in ps;
    var b := set u | u in all;
    NoDupCard(ps);
    NoDupCard(all);
    if IsExactMatch(s, all) {
      assert a <= b;
      SubsetSameSizeEqual(a, b);
    }
    if a == b {
      forall i | 0 <= i < |s.participants| ensures s.participants[i].userId in all {
        assert ps[i] in a;
      }
    }
  }

  lemma {:induction false} SubsetSameSizeEqual<T>(a: set<T>, b: set<T>)
    requires a <= b && |a| == |b|
    ensures a == b
    decreases |b|
  {
    if b != {} {
      var x :| x in b;
      if x in a {
        SubsetSameSizeEqual(a - {x}, b - {x});
        assert a == (a - {x}) + {x};
      } else {
        assert a <= b - {x};
        SubsetCard(a, b - {x});
        assert false;
      }
    }
  }

  lemma {:induction false} SubsetCard<T>(a: set<T>, b: set<T>)
    requires a <= b
    ensures |a| <= |b|
    decreases |b|
  {
    if a != {} {
      var x :| x in a;
      SubsetCard(a - {x}, b - {x});
    }
  }

  /** Without the uniqueness of participant rows the exact-match test can
      accept a session that lacks a requested user. */
  lemma ExactMatchNeedsUniqueRows()
    ensures var s := SessionRow("s", None, [ParticipantRow("a", false, false), ParticipantRow("a", false, false)], [], 0);
            IsExactMatch(s, ["a", "b"]) && !IsParticipant(s, "b")
  {
  }

  // ---------------------------------------------------------------------------
  // GET

  /** The positions of the messages `user` has not read. */
  function UnreadPositions(msgs: seq<Message>, user: UserId): set<int> {
    set i | 0 <= i < |msgs| && UnreadBy(msgs[i], user)
  }

  /** The `_count` of messages unread by `user`: messages from someone else
      whose read list lacks the user. */
  function UnreadCount(msgs: seq<Message>, user: UserId): (n: nat)
    ensures n == |UnreadPositions(msgs, user)|
    ensures n <= |msgs|
    ensures n == 0 <==> forall i :: 0 <= i < |msgs| ==> !UnreadBy(msgs[i], user)
    decreases |msgs|
  {
    if msgs == [] then 0
    else
      assert forall i :: 1 <= i < |msgs| ==> msgs[i] == msgs[1..][i - 1];
      UnreadPositionsCons(msgs, user);
      (if UnreadBy(msgs[0], user) then 1 else 0) + UnreadCount(msgs[1..], user)
  }

  lemma UnreadPositionsCons(msgs: seq<Message>, user: UserId)
    requires msgs != []
    ensures |UnreadPositions(msgs, user)| ==
              (if UnreadBy(msgs[0], user) then 1 else 0) + |UnreadPositions(msgs[1..], user)|
  {
    var whole := UnreadPositions(msgs, user);
    var tail := UnreadPositions(msgs[1..], user);
    var shifted := set i | i in tail :: i + 1;
    UnreadPositionsShift(msgs, user);
    ShiftCard(tail);
    if UnreadBy(msgs[0], user) {
      assert whole == {0} + shifted;
    } else {
      assert whole == shifted;
    }
  }

  lemma Pick<T>(s: set<T>) returns (x: T)
    requires s != {}
    ensures x in s
  {
    x :| x in s;
  }

  /** Past the first message, the unread positions are those of the tail, moved by one. */
  lemma UnreadPositionsShift(msgs: seq<Message>, user: UserId)
    requires msgs != []
    ensures UnreadPositions(msgs, user) - {0} == set i | i in UnreadPositions(msgs[1..], user) :: i + 1
  {
    var whole := UnreadPositions(msgs, user);
    var tail := UnreadPositions(msgs[1..], user);
    var shifted := set i | i in tail :: i + 1;
    forall i | i in whole - {0} ensures i in shifted {
      assert msgs[1..][i - 1] == msgs[i];
      assert i - 1 in tail;
    }
    forall i | i in shifted ensures i in whole - {0} {
      var j :| j in tail && i == j + 1;
      assert msgs[1..][j] == msgs[i];
    }
  }

  lemma {:induction false} ShiftCard(s: set<int>)
    ensures |set i | i in s :: i + 1| == |s|
    decreases |s|
  {
    if s != {} {
      var x := Pick(s);
      var rest := s - {x};
      ShiftCard(rest);
      var whole := set i | i in s :: i + 1;
      var part := set i | i in rest :: i + 1;
      assert whole == part + {x + 1} by {
        forall y | y in whole ensures y in part + {x + 1} {
          var i :| i in s && y == i + 1;
          if i != x { assert i in rest; }
        }
      }
      assert x + 1 !in part;
    }
  }

  /** The count the list shows equals the number of receipts the page sends
      when that conversation is opened. */
  lemma {:induction false} UnreadCountMatchesPage(msgs: seq<Message>, user: UserId)
    ensures UnreadCount(msgs, user) == |ChatClient.UnreadToMark(msgs, user)|
    decreases |msgs|
  {
    if msgs != [] {
      UnreadCountMatchesPage(msgs[1..], user);
    }
  }

  /** One entry of the GET listing. */
  datatype SessionSummary = SessionSummary(
    id: SessionId,
    name: Option<string>,
    participants: seq<UserId>,
    updatedAt: int,
    unreadCount: nat,
    isArchived: bool,
    isMuted: bool)

  /** `participants.find(p => p.userId === user)`. */
  function FindParticipant(ps: seq<ParticipantRow>, user: UserId): (r: Option<ParticipantRow>)
    ensures r.None? <==> forall i :: 0 <= i < |ps| ==> ps[i].userId != user
    ensures r.Some? ==> exists k :: 0 <= k < |ps| && ps[k] == r.value && r.value.userId == user
                          && forall i :: 0 <= i < k ==> ps[i].userId != user
    decreases |ps|
  {
    if ps == [] then None
    else if ps[0].userId == user then Some(ps[0])
    else
      var r := FindParticipant(ps[1..], user);
      assert forall i :: 1 <= i < |ps| ==> ps[i] == ps[1..][i - 1];
      if r.Some? then
        var k :| 0 <= k < |ps[1..]| && ps[1..][k] == r.value && r.value.userId == user
                 && forall i :: 0 <= i < k ==> ps[1..][i].userId != user;
        assert ps[k + 1] == r.value;
        r
      else r
  }

  /** A listing entry for `user`: unread count, and the flags of the user's
      membership row, false when there is none. */
  function Summarize(s: SessionRow, user: UserId): (r: SessionSummary)
    ensures r.id == s.id && r.updatedAt == s.updatedAt && r.participants == UserIds(s.participants)
    ensures r.unreadCount == UnreadCount(s.messages, user)
    ensures !IsParticipant(s, user) ==> !r.isArchived && !r.isMuted
    ensures r.isArchived ==> exists i :: 0 <= i < |s.participants| && s.participants[i].userId == user && s.participants[i].isArchived
    ensures r.isMuted ==> exists i :: 0 <= i < |s.participants| && s.participants[i].userId == user && s.participants[i].isMuted
    ensures NoDup(UserIds(s.participants)) ==>
              forall i :: 0 <= i < |s.participants| && s.participants[i].userId == user ==>
                r.isArchived == s.participants[i].isArchived && r.isMuted == s.participants[i].isMuted
  {
    var p := FindParticipant(s.participants, user);
    assert NoDup(UserIds(s.participants)) && p.Some? ==>
             forall i :: 0 <= i < |s.participants| && s.participants[i].userId == user ==> s.participants[i] == p.value;
    SessionSummary(s.id, s.name, UserIds(s.participants), s.updatedAt, UnreadCount(s.messages, user),
                   p.Some? && p.value.isArchived, p.Some? && p.value.isMuted)
  }

  /** The caller's sessions, in table order. */
  function SessionsOf(db: seq<SessionRow>, user: UserId): (r: seq<SessionRow>)
    ensures forall s :: s in r <==> s in db && IsParticipant(s, user)
    ensures multiset(r) <= multiset(db)
    decreases |db|
  {
    if db == [] then []
    else
      assert db == [db[0]] + db[1..];
      var rest := SessionsOf(db[1..], user);
      if IsParticipant(db[0], user) then [db[0]] + rest else rest
  }

  /** The caller's sessions are kept as often as they occur in the table. */
  lemma {:induction false} SessionsOfCount(db: seq<SessionRow>, user: UserId)
    ensures forall s :: multiset(SessionsOf(db, user))[s] == if IsParticipant(s, user) then multiset(db)[s] else 0
    decreases |db|
  {
    if db != [] {
      SessionsOfCount(db[1..], user);
      FilterConsCount((s: SessionRow) => IsParticipant(s, user), db, SessionsOf(db[1..], user));
    }
  }

  /** Newest activity first. */
  predicate SortedByUpdatedDesc(rows: seq<SessionRow>) {
    forall i, j :: 0 <= i < j < |rows| ==> rows[i].updatedAt >= rows[j].updatedAt
  }

  function InsertByUpdated(x: SessionRow, sorted: seq<SessionRow>): (r: seq<SessionRow>)
    requires SortedByUpdatedDesc(sorted)
    ensures SortedByUpdatedDesc(r)
    ensures multiset(r) == multiset(sorted) + multiset{x}
    ensures |r| == |sorted| + 1
    ensures r[0] == x || (sorted != [] && r[0] == sorted[0])
    decreases |sorted|
  {
    if sorted == [] || x.updatedAt >= sorted[0].updatedAt then [x] + sorted
    else
      var rest := InsertByUpdated(x, sorted[1..]);
      assert sorted == [sorted[0]] + sorted[1..];
      [sorted[0]] + rest
  }

  /** `orderBy: { updatedAt: 'desc' }`. */
  function SortByUpdated(rows: seq<SessionRow>): (r: seq<SessionRow>)
    ensures SortedByUpdatedDesc(r)
    ensures multiset(r) == multiset(rows)
    decreases |rows|
  {
    if rows == [] then []
    else
      assert rows == [rows[0]] + rows[1..];
      InsertByUpdated(rows[0], SortByUpdated(rows[1..]))
  }

  datatype GetResponse = GetUnauthorized | Listing(sessions: seq<SessionSummary>)

  /** GET: the caller's sessions, newest activity first, each summarised for
      the caller. */
  function Get(db: seq<SessionRow>, caller: Option<UserId>): (r: GetResponse)
    ensures caller.None? <==> r == GetUnauthorized
    ensures r.Listing? ==>
              var rows := SortByUpdated(SessionsOf(db, caller.value));
              && |r.sessions| == |rows|
              && (forall i :: 0 <= i < |rows| ==> r.sessions[i] == Summarize(rows[i], caller.value))
    ensures r.Listing? ==> forall i, j :: 0 <= i < j < |r.sessions| ==> r.sessions[i].updatedAt >= r.sessions[j].updatedAt
  {
    if caller.None? then GetUnauthorized
    else
      var rows := SortByUpdated(SessionsOf(db, caller.value));
      Listing(seq(|rows|, i requires 0 <= i < |rows| => Summarize(rows[i], caller.value)))
  }

  /** The rows the listing summarises are exactly the caller's sessions. */
  lemma ListingRowsAreCallerSessions(db: seq<SessionRow>, caller: UserId)
    ensures forall s :: s in SortByUpdated(SessionsOf(db, caller)) <==> s in db && IsParticipant(s, caller)
  {
    var mine := SessionsOf(db, caller);
    var rows := SortByUpdated(mine);
    forall s ensures s in rows <==> s in mine {
      assert s in rows <==> s in multiset(rows);
      assert s in mine <==> s in multiset(mine);
    }
  }
}

=== FILE: sync.dfy ===
/** How the browser's handlers for the server's broadcasts keep its copy of a
    conversation equal to what the server stored. */
module Sync {
  import opened Common
  import opened ChatTypes
  import Server
  import ChatClient

  /** The browser's list shows messages exactly as the server stores them. */
  predicate InSync(view: seq<Message>, msgs: map<MessageId, Message>) {
    forall i :: 0 <= i < |view| ==> view[i].id in msgs && view[i] == msgs[view[i].id]
  }

  /** A browser whose list matched the store before a mark-delivered or
      mark-read call matches it again once it applies the broadcast (if any). */
  lemma ReceiptBroadcastKeepsViewInSync(st: Server.State, sock: Server.SocketId, kind: Receipt, sid: SessionId,
                                        ids: Option<seq<MessageId>>, view: seq<Message>)
    requires sock in st.conns && InSync(view, st.store.messages)
    ensures var r := Server.OnMark(st, sock, kind, sid, ids);
            && (r.emits == [] ==> InSync(view, r.state.store.messages))
            && (forall e :: e in r.emits ==>
                  && e.payload.ReceiptsUpdated?
                  && InSync(ChatClient.ApplyReceipts(view, e.payload.kind, e.payload.messageIds, e.payload.userId),
                            r.state.store.messages))
  {
  }

  /** After a toggle-reaction call, a browser applying the broadcast shows for
      the caller exactly the emoji the server recorded, whatever it showed before. */
  lemma ReactionBroadcastMatchesStore(st: Server.State, sock: Server.SocketId, sid: SessionId, mid: MessageId,
                                      emoji: string, newRowId: string, shown: seq<Reaction>, freshId: string)
    requires sock in st.conns
    ensures var r := Server.OnToggleReaction(st, sock, sid, mid, emoji, newRowId);
            forall e :: e in r.emits ==>
              && e.payload.ReactionUpdated?
              && ChatClient.EmojiBy(ChatClient.ApplyReaction(shown, e.payload.userId, e.payload.messageId, e.payload.emoji, freshId),
                                    e.payload.userId)
                 == Server.EmojiOf(r.state.store.reactions, Server.ReactionKey(e.payload.userId, e.payload.messageId))
  {
  }
}
